=== FILE: README.md ===
# Email Box Analyzer: statistics engine and configuration manager

This project is a Dafny model of the two core components of the Email Box
Analyzer.

**`EmailAnalyzer`** takes a list of fetched email records and builds one
bundle of statistics:

- the sender ranking and the domain breakdown;
- time-of-day, weekday and hour histograms;
- subject-length and subject-word statistics;
- the attachment extension histogram;
- the size bands;
- subject-based threads;
- a lexicon sentiment count;
- stop-word-filtered keyword counts;
- the response-time gaps within threads.

Each `_analyze_*` pass is a loop that feeds a counter. The model writes each
one as a `method` with a loop. Its invariant ties the running counter to a
specification function of the records seen so far, for example
`counter == Tally(SenderKeys(emails[..i]))`. The properties of the
statistics are then proved about those functions. A Python `Counter` or
`defaultdict(int)` is an insertion-ordered table of (key, count) pairs.
`most_common(n)` is a stable descending sort followed by a take of `n`
entries.

**`ConfigManager`** holds the loaded configuration as JSON values, a typed
table of email providers, and the application settings. It validates the
configuration, and it serves, adds, updates and removes providers. In the
model it is a `class` whose methods change those fields. The predicate
`Valid()` keeps the typed table and the raw table in step. Every write to
the configuration file is appended to a ghost log, `saved`.

Modules, one per file:

| module | contents |
|---|---|
| `Wrappers` | `Option`, `Result` |
| `Counters` | frequency tables and the stable ranking |
| `Text` | ASCII character classes, lower-casing, `\b\w+\b` tokens |
| `Address` | the sender-address and domain patterns |
| `Numbers` | sum, min, max and mean |
| `Records` | the email record, the date range, the total size |
| `Activity` | senders, time of day, weekday, hour, domains |
| `Content` | subjects, attachments, sizes, sentiment, keywords |
| `Threads` | the thread key, grouping, thread statistics |
| `Responses` | response-time gaps |
| `Analyzer` | `analyze_emails` and the empty bundle |
| `Config` | JSON values, the two records, the validation rules, `asdict` |
| `Manager` | the `ConfigManager` class |

## Model

| member | source | states |
|---|---|---|
| Analyzer.EmptyBundle | src/analyzers/email_analyzer.py:57-75 | No records give a zero count and the "No emails" range. They also give an empty sender list and empty histograms, each equal to what the corresponding statistic yields on no records. Every other section is absent. |
| Analyzer.AnalyzeEmails | src/analyzers/email_analyzer.py:21-55 | No records give exactly the empty bundle. Otherwise the call fails exactly when the response-time pass raises. On success it holds the record count, date range, size, sender ranking and three histograms of the input. Every section is present, the sentiment classes add up to the record count, and the sample count is Σ(k−1). |
| Records.DateRangeOf | src/analyzers/email_analyzer.py:77-89 | The result is "No emails" exactly for no records and "No valid dates" exactly when no record is dated. Otherwise both ends are dates of records, first ≤ last, and every date lies between them. |
| Records.TotalSizeMb | src/analyzers/email_analyzer.py:91-94 | The size in MiB is never negative, and times 1048576 it equals the byte total. |
| Text.Words | src/analyzers/email_analyzer.py:163 | Every token is a non-empty run of `\w` characters. |
| Text.WordsKeepEveryWordChar | src/analyzers/email_analyzer.py:163 | Joined together, the tokens are exactly the word characters of the text, in order. |
| Text.WordsEmpty | src/analyzers/email_analyzer.py:325 | There are no tokens exactly when the text has no word character. |
| Address.ExtractAddress | src/analyzers/email_analyzer.py:103 | A found address has the shape local@domain.tld and is a substring of the sender. |
| Address.ExtractDomain | src/analyzers/email_analyzer.py:267 | A found domain has the domain shape and follows an `@` in the sender. |
| Address.DomainMatchComplete | src/analyzers/email_analyzer.py:267 | When any prefix after the `@` has the domain shape, the search finds a match. |
| Address.AddressImpliesDomain | src/analyzers/email_analyzer.py:103 | A sender ranked under an extracted address also has a domain counted. |
| Counters.TallyFacts | src/analyzers/email_analyzer.py:98-109 | A counter built from a sequence has distinct keys and positive counts. Its counts sum to the sequence length, and it is empty exactly when the sequence is. |
| Counters.TallyCount | src/analyzers/email_analyzer.py:98-109 | The count of each key is its number of occurrences, and a key is present exactly when it occurs. |
| Counters.TallyAppend | src/analyzers/email_analyzer.py:165 | Counting `xs` then `ys` (`Counter.update`) gives the count of `xs + ys`. |
| Counters.AddKeysOrder | src/analyzers/email_analyzer.py:240 | A new key goes to the end of the insertion order, and an existing key keeps its place. |
| Counters.SortDescFacts | src/analyzers/email_analyzer.py:250 | The ranking is sorted by descending key and is a permutation of its input. |
| Counters.MostCommonFacts | src/analyzers/email_analyzer.py:109 | `most_common(n)` keeps min(n, size) entries of the table, largest first, and no left-out entry outnumbers a kept one. |
| Counters.TopOfTally | src/analyzers/email_analyzer.py:109 | The top `n` of a counted sequence have at most `n` entries, sorted. Each entry is a real key with its exact occurrence count, and no left-out key is more frequent. |
| Activity.AnalyzeSenders | src/analyzers/email_analyzer.py:96-109 | The result is the 20 most frequent sender keys (the embedded address, else the raw sender). It is sorted, and each entry carries its exact count. |
| Activity.Band | src/analyzers/email_analyzer.py:116-125 | Hours 6–11 are Morning, 12–16 Afternoon and 17–21 Evening; every other hour is Night (each one an if-and-only-if). |
| Activity.BandLabelsDistinct | src/analyzers/email_analyzer.py:118-125 | The four dictionary keys written for the bands are distinct, so a count per band is a count per key. |
| Activity.AnalyzeTimeActivity | src/analyzers/email_analyzer.py:111-127 | The band counts equal the occurrences of each band, sum to the number of dated records, and cover at most 4 bands. |
| Activity.AnalyzeDailyActivity | src/analyzers/email_analyzer.py:129-139 | Every key is a weekday name with its exact count, and the counts sum to the number of dated records. |
| Activity.AnalyzeHourlyActivity | src/analyzers/email_analyzer.py:141-149 | Every hour has its exact count, and the counts sum to the number of dated records. |
| Activity.AnalyzeDomains | src/analyzers/email_analyzer.py:260-275 | The top 20 domains are domain-shaped with exact counts. The distinct-domain count is at most the record count, and the diversity is that ratio, in [0, 1]. |
| Content.AnalyzeSubjects | src/analyzers/email_analyzer.py:151-173 | The length statistics are the mean, max and min over non-empty subjects, all 0 when there are none, with 1 ≤ min ≤ avg ≤ max otherwise. The result also holds the top 20 lower-cased word tokens with exact counts and the total token count. |
| Content.Extension | src/analyzers/email_analyzer.py:186-190 | A name without a dot gives "no_extension". Otherwise the result is the lower-cased text after a dot with no dot after it, i.e. the last dot. |
| Content.AnalyzeAttachments | src/analyzers/email_analyzer.py:175-199 | The result holds the number of records with attachments and the number of attachments, with with ≤ records and with ≤ total. It also holds the top 10 extensions with exact counts, and a rate equal to with / records × 100, in [0, 100]. |
| Content.CountExtensions | src/analyzers/email_analyzer.py:185-190 | The inner loop adds one count per attachment extension. |
| Content.SizeBandOf | src/analyzers/email_analyzer.py:214-221 | A size below 1024 is Small, below 10240 Medium and below 102400 Large; anything else is Very Large (each one an if-and-only-if). |
| Content.SizeLabelsDistinct | src/analyzers/email_analyzer.py:208-222 | The four dictionary keys written for the size bands are distinct, so a count per band is a count per key. |
| Content.AnalyzeSizeDistribution | src/analyzers/email_analyzer.py:201-230 | No records give nothing. Otherwise the result holds the count per band, summing to the record count, and the mean, max and min size with 0 ≤ min ≤ avg ≤ max. |
| Content.Classify | src/analyzers/email_analyzer.py:324-335 | A record is positive iff it has more distinct positive-lexicon words than negative ones, negative iff the reverse, and neutral iff they tie (zero included). |
| Content.PercentagesAddUp | src/analyzers/email_analyzer.py:342-344 | The three class percentages of a non-empty input add up to 100. |
| Content.AnalyzeSentiment | src/analyzers/email_analyzer.py:277-345 | Each class count is the number of records so classified, and the three sum to the record count. The percentages are as written, summing to 100 for a non-empty input. |
| Content.KeywordsOf | src/analyzers/email_analyzer.py:410-414 | Every kept token is a word of three or more ASCII letters that is not a stop word, and every such word of the text is kept, as many times as it occurs in the text. |
| Content.FilterOccurrences | src/analyzers/email_analyzer.py:411-414 | A filter keeps every occurrence of each value it accepts. |
| Content.TopEntry | src/analyzers/email_analyzer.py:418-420 | `most_common(1)` is the head of `most_common(50)` and no entry exceeds it. |
| Content.AnalyzeKeywords | src/analyzers/email_analyzer.py:347-421 | The result holds at most 50 top keywords with exact counts, all valid keywords, and the number of distinct keywords. The most common word is absent exactly when no keyword occurs; otherwise it heads the top list and is maximal. |
| Threads.PrefixLength | src/analyzers/email_analyzer.py:239 | The marker length is 0 exactly when there is no `re:`/`fwd:`/`fw:` marker (any case). Otherwise the marker, lower-cased, is one of those three. |
| Threads.StripReplyPrefix | src/analyzers/email_analyzer.py:239 | A subject without a marker is unchanged. Otherwise one marker and only whitespace after it are removed, and the rest does not start with whitespace. |
| Threads.KeyOfReply | src/analyzers/email_analyzer.py:239-240 | A marker, then whitespace, then a remainder keys as the lower-cased remainder. Exactly one marker goes, even when the remainder starts with another. |
| Threads.KeyOfPlain | src/analyzers/email_analyzer.py:239-240 | A subject without a marker keys as itself lower-cased. |
| Threads.MembersCount | src/analyzers/email_analyzer.py:240 | A thread's size is the number of occurrences of its key. |
| Threads.GroupThreads | src/analyzers/email_analyzer.py:234-240 | The dictionary's keys are the distinct thread keys in first-seen order, and each key's list is that thread's records in input order. |
| Threads.CollectThreadStats | src/analyzers/email_analyzer.py:242-247 | The loop builds exactly the entries of the threads with more than one record, in key order. |
| Threads.ThreadStatsFacts | src/analyzers/email_analyzer.py:242-247 | Every entry is a key occurring at least twice, with its size and date range, and every such key has an entry. |
| Threads.RankingFacts | src/analyzers/email_analyzer.py:250 | The ranking keeps the entries, and its head is a largest thread. |
| Threads.AverageSize | src/analyzers/email_analyzer.py:256 | The mean size of threads of two or more lies between 2 and the largest size. |
| Threads.AnalyzeThreads | src/analyzers/email_analyzer.py:232-258 | The result holds the number of threads of two or more records. The top threads are the first 10 of the ranking, sorted, at most 10, and drawn from the thread stats. The largest thread is absent exactly when there are none; otherwise it is the first top thread and maximal. The mean size is in [2, largest]. |
| Responses.Ascending | src/analyzers/email_analyzer.py:441 | The sort keeps the same values (a permutation) in ascending order. |
| Responses.GapsOfAscending | src/analyzers/email_analyzer.py:443-445 | Gaps of an ascending sequence are never negative. |
| Responses.GapsTelescope | src/analyzers/email_analyzer.py:443-445 | The gaps of a thread add up to its last time minus its first. |
| Responses.ThreadGaps | src/analyzers/email_analyzer.py:439-445 | A thread of k ≥ 2 records gives k−1 gaps, none is negative, and together they add up to the thread's latest send time minus its earliest. |
| Responses.ResponseGaps | src/analyzers/email_analyzer.py:438-445 | The result is absent exactly when some thread cannot be sorted. Otherwise there are Σ(k−1) gaps, all ≥ 0. |
| Responses.SampleCount | src/analyzers/email_analyzer.py:438-452 | Σ(k−1) equals the records with a subject minus the distinct thread keys. |
| Responses.FailureCause | src/analyzers/email_analyzer.py:441 | Sorting raises exactly when an undated record with a subject shares its key with another record. |
| Responses.AppendGaps | src/analyzers/email_analyzer.py:443-445 | The inner loop appends the consecutive differences. |
| Responses.CollectGaps | src/analyzers/email_analyzer.py:438-445 | The thread loop computes the gaps, or fails where the sort would raise. |
| Responses.AnalyzeResponseTimes | src/analyzers/email_analyzer.py:423-460 | The call fails iff a sort raises. Otherwise samples = Σ(k−1) = subjects − distinct keys, and all four fields are 0 with no sample. Otherwise min, max and mean are in hours, with 0 ≤ min ≤ avg ≤ max. |
| Config.DecodeProvider | src/core/config_manager.py:16-29 | `EmailProviderConfig(**data)` succeeds only on an object with known field names and all required fields. The record's ports and name are the given values. |
| Config.DecodeSettings | src/core/config_manager.py:32-48 | `AppSettings(**data)` accepts only known field names. A missing or null `export_formats` becomes the default list. |
| Config.EmptySettingsAreDefaults | src/core/config_manager.py:36-48 | An empty settings object gives every default, with `export_formats` = pdf, png, csv, json. |
| Config.FirstMissing | src/core/config_manager.py:166-170 | The result is absent iff all required fields are present. Otherwise it is the first missing one in list order. |
| Config.CheckProvider | src/core/config_manager.py:164-180 | The check reports, in order: the first missing required field, a non-positive IMAP port, a non-positive SMTP port. Otherwise it builds the record. On success both ports are > 0. |
| Config.CheckSettings | src/core/config_manager.py:182-194 | The record is built first; then a theme outside light/dark/auto fails, then a log level outside the five levels fails. On success both are valid. |
| Config.ProviderRoundTrip | src/core/config_manager.py:211 | A provider written by `asdict` reads back as the same record. |
| Config.ProviderCheckRoundTrip | src/core/config_manager.py:173-180 | A written provider passes validation iff both ports are positive. |
| Config.SettingsRoundTrip | src/core/config_manager.py:128-138 | Settings written out read back as the same record. |
| Config.PortTestsDiffer | src/core/config_manager.py:173-177 | The port test as written and the intended one differ exactly on JSON `true`. |
| Config.DefaultProvidersAccepted | src/core/config_manager.py:90-127 | Each of the three default providers passes validation. |
| Config.DefaultConfigAccepted | src/core/config_manager.py:87-139 | The configuration written on first run passes validation. |
| Manager.ConfigManager.constructor | src/core/config_manager.py:54-67 | The manager starts from the loaded configuration, or from the default one, which is saved; both tables start empty. |
| Manager.ConfigManager.ValidateEmailProvider | src/core/config_manager.py:164-180 | The call passes iff `CheckProvider` succeeds, and then the record is entered under its id. It fails with `CheckProvider`'s error and leaves the table unchanged otherwise. |
| Manager.ConfigManager.ValidateAppSettings | src/core/config_manager.py:182-194 | The call passes iff `CheckSettings` succeeds. The settings are stored as soon as they are built, even when the theme or level check then fails. |
| Manager.ConfigManager.ValidateConfig | src/core/config_manager.py:149-162 | The call passes iff the configuration is accepted, and then `Valid()` holds. A missing section reports that section. A failure is a failing provider or the settings error. |
| Manager.ConfigManager.Open | src/core/config_manager.py:54-67 | A manager is built exactly when its configuration is accepted, and it is then valid. Its save log holds the default configuration when no file was loaded (first run) and is empty otherwise. |
| Manager.ConfigManager.GetEmailProvider | src/core/config_manager.py:196-198 | The call returns None exactly for an unknown id, and the stored record otherwise. |
| Manager.ConfigManager.GetAllProviders | src/core/config_manager.py:200-202 | The call returns the provider table. |
| Manager.ConfigManager.UpdateEmailProvider | src/core/config_manager.py:208-212 | Both tables get the entry under the id (the raw one in `asdict` form), all other entries are kept and the key sets stay equal. Every other section of the configuration, `app_settings` included, is unchanged. Validity is preserved and one save of that configuration is logged. |
| Manager.ConfigManager.AddCustomProvider | src/core/config_manager.py:220-225 | The call fails iff the id exists, and then changes nothing. Otherwise both tables get the entry, only the providers section of the configuration changes, and one save is logged. |
| Manager.ConfigManager.RemoveProvider | src/core/config_manager.py:227-234 | The call fails iff the id is unknown, and then changes nothing. Otherwise the id leaves both tables, other entries are kept, only the providers section of the configuration changes, validity is preserved and one save is logged. |
| Manager.InStepUpdate | src/core/config_manager.py:210-211 | Writing a record under an id in both tables keeps them in step. |
| Manager.InStepRemove | src/core/config_manager.py:232-233 | Deleting an id from both tables keeps them in step. |
| Manager.AddThenGet | src/core/config_manager.py:220-225 | Adding under a fresh id, then getting it, returns the record added. |

## Left out

- Logging (`self.logger`) is not modelled.
- Date formatting is not modelled. `date_range` is a `DateRange` value (no emails, no valid dates, or the earliest and latest stamps), not the `strftime` text.
- A `datetime` is modelled as a `Stamp`: an integer instant in seconds plus the hour and weekday `datetime` reports. The following are not captured:
  - time zones;
  - sub-second precision in `total_seconds()`;
  - the `TypeError` from comparing naive with aware datetimes.
- Regular expressions and lower-casing are modelled exactly for ASCII text only. Non-ASCII letters and digits, which Python's `\w` and `str.lower` also cover, are not modelled.
- Floating point is modelled as exact reals.
  - AnalyzeResponseTimes: the mean, min and max are taken over whole seconds and then divided by 3600. This equals the source's per-sample division in exact arithmetic, not in floating point.
  - AnalyzeSubjects, AnalyzeThreads and AnalyzeResponseTimes: the empty-case averages (and, for response times, the empty-case minimum and maximum) are the real 0.0 where the source returns the integer 0.
- AnalyzeEmails (Analyzer.AnalyzeEmails): for each section the contract states only that it is present, plus the sentiment total and the response-sample count. The full content of each section is stated by that section's own method.
- ExtractAddress (Address.ExtractAddress): the contract states the match's shape and that it lies in the sender. That it is the leftmost match is in the function's definition, not in a lemma.
- ExtractDomain (Address.ExtractDomain): the contract states the domain's shape and that it follows an `@` in the sender. That it belongs to the leftmost `@` with a match, and that it is the greedy longest domain there, is in the function's definition, not in a lemma.
- DecodeProvider (Config.DecodeProvider): the model is stricter than Python. A field of the wrong JSON type (a string port, a number as name) fails with `WrongType`, where the dataclass would accept it. An unknown field name fails with `UnexpectedFields`, where the source raises `TypeError`.
- DecodeSettings (Config.DecodeSettings): the model is stricter than Python in the same way. A settings field of the wrong JSON type (a number as theme, a string in place of the list of export formats) fails with `WrongType`, where the dataclass would accept it.
- CheckProvider (Config.CheckProvider): every provider entry that is not a JSON object fails with `NotAnObject`. The source fails on each of these too, but reports it differently:
  - a list or string entry: `field not in provider_data` (src/core/config_manager.py:168-170) is a membership or substring test. One lacking a field name gets the ordinary `ValueError` for a missing field, which the model would call `MissingField`. One that holds all five names raises `TypeError` at the port check (line 173), where a list or string is indexed by a field name;
  - a number, boolean or null entry: `in` itself raises `TypeError`.

  Whether validation passes or fails is therefore the same in the model and the source; only the error reported differs. A non-object `email_providers` section in ValidateConfig likewise fails with `NotAnObject`, where the source's `.items()` raises `AttributeError`.
- ValidateConfig (Manager.ConfigManager.ValidateConfig): the order in which providers are checked is left open. A JSON object is a map here, so when several providers fail, the contract says only that the error belongs to one of them. Its `requires emailProviders == map[]` is the state in which the constructor calls it.
- The following are file-system or library code and are not part of this model:
  - `_load_config`, `_save_config` and `_get_default_config_path`: loading is the `loaded` parameter, and saving is the ghost log `saved`;
  - JSON parse errors;
  - `get_data_directory`;
  - `validate_email_address`.
- GetEmailProvider, UpdateEmailProvider and AddCustomProvider (Manager.ConfigManager): provider records are values in the model. In the source, `get_email_provider` hands out the stored `EmailProviderConfig` object itself, and update and add store the caller's own object while `config_data` gets an `asdict` copy. A caller that later changes that object changes `email_providers` but not `config_data`. That aliasing is not captured, so `Valid()`'s agreement between the two tables holds in the model but is not guaranteed by the source against such a caller.
- Open (Manager.ConfigManager.Open): the loaded file is a JSON object (`map<string, Json>`). A file whose top level is not an object, such as a list, cannot be given. The source reports such a file as missing its `email_providers` section (src/core/config_manager.py:152-153).
- `get_app_settings` and `update_app_settings` are outside the modelled core. They are plain field reads and writes.
- In the code, the `TypeError` that `sorted` raises in `_analyze_response_times` (src/analyzers/email_analyzer.py:441) is not caught, so it escapes `analyze_emails`; no section is isolated from the others. `AnalyzeEmails` fails exactly when that sort fails.

## Findings

| source | as written | input that shows it | evidently intended | confidence | as-written member | corrected member |
|---|---|---|---|---|---|---|
| src/core/config_manager.py:173-177 | `isinstance(v, int) and v > 0` accepts a JSON `true` as a port, because `bool` is a subclass of `int` in Python | a provider with `"imap_port": true` passes the port check, as port 1 | a port must be a positive integer, and a boolean is refused | not executed | Config.ValidPortAsWritten, Config.PortTestsDiffer | Config.CheckProvider |

The port test as written is `Config.ValidPortAsWritten`, and `Config.PortTestsDiffer` proves that it accepts `JBool(true)` while the intended test does not. The intended test, `Config.ValidPort`, is the one `Config.CheckProvider` and the rest of the model use. It guarantees that an accepted provider has two positive integer ports. The exhibit is at the level of the port test: the model's decoding refuses a boolean port with `WrongType` (see DecodeProvider under "## Left out"), so the source's end-to-end acceptance of `"imap_port": true` as a provider is not modelled beyond the port test.

=== FILE: activity.dfy ===
/**
 * Who sent the mail and when: `_analyze_senders`, `_analyze_time_activity`,
 * `_analyze_daily_activity`, `_analyze_hourly_activity` and
 * `_analyze_domains`. Each is a loop that feeds a counter.
 */
module Activity {
  import opened Wrappers
  import opened Counters
  import opened Address
  import opened Records

  // ---------------------------------------------------------------------------
  // Senders

  /** The key a sender is counted under: its embedded address, else the raw text. */
  function SenderKey(sender: string): string
  {
    match ExtractAddress(sender)
    case Some(address) => address
    case None => sender
  }

  function SenderKeyOf(e: Email): seq<string>
  {
    if e.sender != "" then [SenderKey(e.sender)] else []
  }

  predicate HasSender(e: Email) { e.sender != "" }

  /** The keys counted by `_analyze_senders`, one per record with a non-empty sender. */
  function SenderKeys(emails: seq<Email>): (ks: seq<string>)
    ensures |ks| == CountWhere(emails, HasSender)
  {
    FlatMapSingletons(emails, SenderKeyOf, HasSender);
    FlatMap(emails, SenderKeyOf)
  }

  /** `_analyze_senders`: the 20 most frequent sender keys. */
  method AnalyzeSenders(emails: seq<Email>) returns (top: Table<string>)
    ensures top == MostCommon(Tally(SenderKeys(emails)), 20)
    ensures |top| <= 20 && SortedDesc(top, CountOf)
    ensures forall e :: e in top ==> e.1 == Occurrences(SenderKeys(emails), e.0) && e.1 >= 1
  {
    var counter: Table<string> := [];
    for i := 0 to |emails|
      invariant counter == Tally(SenderKeys(emails[..i]))
    {
      var e := emails[i];
      if e.sender != "" {
        var key := match ExtractAddress(e.sender)
          case Some(address) => address
          case None => e.sender;
        counter := Add(counter, key);
      }
      FlatMapStep(emails, i, SenderKeyOf);
      TallyAppend(SenderKeys(emails[..i]), SenderKeyOf(e));
    }
    assert emails[..|emails|] == emails;
    top := MostCommon(counter, 20);
    TopOfTally(SenderKeys(emails), 20);
  }

  // ---------------------------------------------------------------------------
  // Time of day

  datatype TimeOfDay = Morning | Afternoon | Evening | Night
  {
    /** The key the source writes for this band. */
    function Label(): string
    {
      match this
      case Morning => "Morning (6-12)"
      case Afternoon => "Afternoon (12-17)"
      case Evening => "Evening (17-22)"
      case Night => "Night (22-6)"
    }
  }

  /** The four keys the source writes are distinct, so counting bands counts those keys. */
  lemma BandLabelsDistinct()
    ensures forall a: TimeOfDay, b: TimeOfDay :: a.Label() == b.Label() ==> a == b
  {
    forall a: TimeOfDay, b: TimeOfDay | a != b ensures a.Label() != b.Label() {
      assert a.Label()[0] != b.Label()[0];
    }
  }

  /** The band of an hour: [6, 12), [12, 17), [17, 22), and the rest of the day. */
  function Band(h: Hour): (b: TimeOfDay)
    ensures b == Morning <==> 6 <= h <= 11
    ensures b == Afternoon <==> 12 <= h <= 16
    ensures b == Evening <==> 17 <= h <= 21
    ensures b == Night <==> h <= 5 || 22 <= h
  {
    if 6 <= h < 12 then Morning
    else if 12 <= h < 17 then Afternoon
    else if 17 <= h < 22 then Evening
    else Night
  }

  function BandOf(e: Email): seq<TimeOfDay>
  {
    if e.date.Some? then [Band(e.date.value.hour)] else []
  }

  /** The band of every dated record, in input order. */
  function Bands(emails: seq<Email>): (bs: seq<TimeOfDay>)
    ensures |bs| == CountWhere(emails, HasDate)
  {
    FlatMapSingletons(emails, BandOf, HasDate);
    FlatMap(emails, BandOf)
  }

  /**
   * `_analyze_time_activity`: a count per band that occurs, in first-seen
   * order; the counts add up to the number of dated records.
   */
  method AnalyzeTimeActivity(emails: seq<Email>) returns (activity: Table<TimeOfDay>)
    ensures activity == Tally(Bands(emails))
    ensures Total(activity) == CountWhere(emails, HasDate)
    ensures DistinctKeys(activity) && |activity| <= 4
    ensures forall b :: Count(activity, b) == Occurrences(Bands(emails), b)
  {
    activity := [];
    for i := 0 to |emails|
      invariant activity == Tally(Bands(emails[..i]))
    {
      var e := emails[i];
      if e.date.Some? {
        var hour := e.date.value.hour;
        var band := if 6 <= hour < 12 then Morning
          else if 12 <= hour < 17 then Afternoon
          else if 17 <= hour < 22 then Evening
          else Night;
        activity := Add(activity, band);
      }
      FlatMapStep(emails, i, BandOf);
      TallyAppend(Bands(emails[..i]), BandOf(e));
    }
    assert emails[..|emails|] == emails;
    TallyFacts(Bands(emails));
    forall b ensures Count(activity, b) == Occurrences(Bands(emails), b) {
      TallyCount(Bands(emails), b);
    }
    DistinctBandsAtMostFour(activity);
  }

  lemma DistinctBandsAtMostFour(t: Table<TimeOfDay>)
    requires DistinctKeys(t)
    ensures |t| <= 4
  {
    var keys := set i | 0 <= i < |t| :: t[i].0;
    assert keys <= {Morning, Afternoon, Evening, Night} by {
      forall k | k in keys ensures k in {Morning, Afternoon, Evening, Night} {
        assert k.Morning? || k.Afternoon? || k.Evening? || k.Night?;
      }
    }
    SubsetSize(keys, {Morning, Afternoon, Evening, Night});
    IndexImage(t);
  }

  lemma SubsetSize<T>(a: set<T>, b: set<T>)
    requires a <= b
    ensures |a| <= |b|
  {
    assert b == a + (b - a);
  }

  /** With distinct keys, a table has as many entries as it has keys. */
  lemma {:induction false} IndexImage<K>(t: Table<K>)
    requires DistinctKeys(t)
    ensures |set i | 0 <= i < |t| :: t[i].0| == |t|
  {
    if t != [] {
      var rest := t[1..];
      IndexImage(rest);
      var s := set i | 0 <= i < |t| :: t[i].0;
      var s' := set i | 0 <= i < |rest| :: rest[i].0;
      assert s == {t[0].0} + s' by {
        forall k | k in s ensures k in {t[0].0} + s' {
          var i :| 0 <= i < |t| && t[i].0 == k;
          if i > 0 { assert rest[i - 1].0 == k; }
        }
      }
      assert t[0].0 !in s';
    }
  }

  // ---------------------------------------------------------------------------
  // Day of week and hour of day

  const DayNames: seq<string> := ["Monday", "Tuesday", "Wednesday", "Thursday", "Friday", "Saturday", "Sunday"]

  function DayOf(e: Email): seq<string>
  {
    if e.date.Some? then [DayNames[e.date.value.weekday]] else []
  }

  function Days(emails: seq<Email>): (ds: seq<string>)
    ensures |ds| == CountWhere(emails, HasDate)
  {
    FlatMapSingletons(emails, DayOf, HasDate);
    FlatMap(emails, DayOf)
  }

  /** `_analyze_daily_activity`: a count per weekday name, adding up to the dated records. */
  method AnalyzeDailyActivity(emails: seq<Email>) returns (activity: Table<string>)
    ensures activity == Tally(Days(emails))
    ensures Total(activity) == CountWhere(emails, HasDate)
    ensures forall e :: e in activity ==> e.0 in DayNames && e.1 == Occurrences(Days(emails), e.0)
  {
    activity := [];
    for i := 0 to |emails|
      invariant activity == Tally(Days(emails[..i]))
    {
      var e := emails[i];
      if e.date.Some? {
        activity := Add(activity, DayNames[e.date.value.weekday]);
      }
      FlatMapStep(emails, i, DayOf);
      TallyAppend(Days(emails[..i]), DayOf(e));
    }
    assert emails[..|emails|] == emails;
    TallyFacts(Days(emails));
    forall e | e in activity ensures e.0 in DayNames && e.1 == Occurrences(Days(emails), e.0) {
      TallyEntry(Days(emails), e);
      FlatMapMember(emails, DayOf, e.0);
    }
  }

  function HourOf(e: Email): seq<Hour>
  {
    if e.date.Some? then [e.date.value.hour] else []
  }

  function Hours(emails: seq<Email>): (hs: seq<Hour>)
    ensures |hs| == CountWhere(emails, HasDate)
  {
    FlatMapSingletons(emails, HourOf, HasDate);
    FlatMap(emails, HourOf)
  }

  /** `_analyze_hourly_activity`: a count per hour that occurs, adding up to the dated records. */
  method AnalyzeHourlyActivity(emails: seq<Email>) returns (activity: Table<Hour>)
    ensures activity == Tally(Hours(emails))
    ensures Total(activity) == CountWhere(emails, HasDate)
    ensures DistinctKeys(activity)
    ensures forall h :: Count(activity, h) == Occurrences(Hours(emails), h)
  {
    activity := [];
    for i := 0 to |emails|
      invariant activity == Tally(Hours(emails[..i]))
    {
      var e := emails[i];
      if e.date.Some? {
        activity := Add(activity, e.date.value.hour);
      }
      FlatMapStep(emails, i, HourOf);
      TallyAppend(Hours(emails[..i]), HourOf(e));
    }
    assert emails[..|emails|] == emails;
    TallyFacts(Hours(emails));
    forall h ensures Count(activity, h) == Occurrences(Hours(emails), h) {
      TallyCount(Hours(emails), h);
    }
  }

  // ---------------------------------------------------------------------------
  // Domains

  function DomainOf(e: Email): seq<string>
  {
    if e.sender != "" then
      match ExtractDomain(e.sender)
      case Some(d) => [d]
      case None => []
    else []
  }

  /** The domains counted by `_analyze_domains`, one per sender that has one. */
  function Domains(emails: seq<Email>): (ds: seq<string>)
    ensures |ds| <= |emails|
  {
    FlatMapAtMostOne(emails, DomainOf);
    FlatMap(emails, DomainOf)
  }

  lemma {:induction false} FlatMapAtMostOne<A, B>(xs: seq<A>, f: A -> seq<B>)
    requires forall x :: |f(x)| <= 1
    ensures |FlatMap(xs, f)| <= |xs|
  {
    if xs != [] {
      FlatMapAtMostOne(xs[..|xs| - 1], f);
    }
  }

  datatype DomainStats = DomainStats(topDomains: Table<string>, totalDomains: nat, diversity: real)

  /** What the domain counter holds, summarised for `AnalyzeDomains`. */
  lemma DomainTally(emails: seq<Email>)
    ensures |Tally(Domains(emails))| <= |emails|
    ensures forall e :: e in MostCommon(Tally(Domains(emails)), 20) ==>
      IsDomain(e.0) && e.1 == Occurrences(Domains(emails), e.0)
  {
    TallyFacts(Domains(emails));
    TopOfTally(Domains(emails), 20);
    forall e | e in MostCommon(Tally(Domains(emails)), 20) ensures IsDomain(e.0) {
      FlatMapMember(emails, DomainOf, e.0);
    }
  }

  /**
   * A ratio `a / b` with `a <= b` lies in [0, 1]: the diversity bound, kept
   * apart so the real arithmetic stays out of the loop's proof.
   */
  lemma Ratio(a: nat, b: nat)
    requires 0 < b && a <= b
    ensures 0.0 <= a as real / b as real <= 1.0
    ensures (a as real / b as real) * b as real == a as real
  {
  }

  /**
   * `_analyze_domains`: the 20 most frequent sender domains, the number of
   * distinct domains and their ratio to the number of records, which lies
   * between 0 and 1.
   */
  method AnalyzeDomains(emails: seq<Email>) returns (r: DomainStats)
    ensures r.topDomains == MostCommon(Tally(Domains(emails)), 20)
    ensures r.totalDomains == |Tally(Domains(emails))| <= |emails|
    ensures forall e :: e in r.topDomains ==> IsDomain(e.0) && e.1 == Occurrences(Domains(emails), e.0)
    ensures r.diversity == if |emails| > 0 then r.totalDomains as real / |emails| as real else 0.0
    ensures 0.0 <= r.diversity <= 1.0
  {
    var counter: Table<string> := [];
    for i := 0 to |emails|
      invariant counter == Tally(Domains(emails[..i]))
    {
      var e := emails[i];
      if e.sender != "" {
        var found := ExtractDomain(e.sender);
        if found.Some? {
          counter := Add(counter, found.value);
        }
      }
      FlatMapStep(emails, i, DomainOf);
      TallyAppend(Domains(emails[..i]), DomainOf(e));
    }
    assert emails[..|emails|] == emails;
    DomainTally(emails);
    var total := |counter|;
    var diversity := 0.0;
    if |emails| > 0 {
      diversity := total as real / |emails| as real;
      Ratio(total, |emails|);
    }
    r := DomainStats(MostCommon(counter, 20), total, diversity);
  }
}

=== FILE: address.dfy ===
/**
 * Sender address and domain extraction, i.e. what `re.search` returns for
 *   [a-zA-Z0-9._%+-]+@[a-zA-Z0-9.-]+\.[a-zA-Z]{2,}      (the address)
 *   @([a-zA-Z0-9.-]+\.[a-zA-Z]{2,})                     (the domain, group 1)
 * with the leftmost-start, greedy-with-backtracking semantics of Python's
 * regex engine, written out as functions over ASCII text.
 */
module Address {
  import opened Wrappers
  import opened Text

  /** A character of `[a-zA-Z0-9._%+-]`. */
  predicate IsLocalChar(c: char) { IsAsciiLetter(c) || IsDigit(c) || c in "._%+-" }

  /** A character of `[a-zA-Z0-9.-]`. */
  predicate IsDomainChar(c: char) { IsAsciiLetter(c) || IsDigit(c) || c == '.' || c == '-' }

  /** Text matched by `[a-zA-Z0-9.-]+\.[a-zA-Z]{2,}` as a whole. */
  ghost predicate IsDomain(d: string)
  {
    && (forall i :: 0 <= i < |d| ==> IsDomainChar(d[i]))
    && exists q :: 1 <= q && q + 3 <= |d| && d[q] == '.' && AllLetters(d[q + 1..])
  }

  /** Length of the run of domain characters at the front of `s`. */
  function DomainRun(s: string): (n: nat)
    ensures n <= |s|
    ensures forall i :: 0 <= i < n ==> IsDomainChar(s[i])
    ensures n < |s| ==> !IsDomainChar(s[n])
  {
    if s == [] || !IsDomainChar(s[0]) then 0 else 1 + DomainRun(s[1..])
  }

  /** Length of the run of ASCII letters at the front of `s`. */
  function LetterRun(s: string): (n: nat)
    ensures n <= |s|
    ensures forall i :: 0 <= i < n ==> IsAsciiLetter(s[i])
    ensures n < |s| ==> !IsAsciiLetter(s[n])
  {
    if s == [] || !IsAsciiLetter(s[0]) then 0 else 1 + LetterRun(s[1..])
  }

  /** `d[q]` can start the `\.[a-zA-Z]{2,}` tail. */
  predicate TldDotAt(d: string, q: nat)
  {
    q + 2 < |d| && d[q] == '.' && IsAsciiLetter(d[q + 1]) && IsAsciiLetter(d[q + 2])
  }

  /**
   * The greedy `[a-zA-Z0-9.-]+` gives back characters one at a time, so the
   * tail starts at the largest `q` in [1, hi] where it can.
   */
  function LastTldDot(d: string, hi: nat): (r: Option<nat>)
    ensures r.Some? ==> 1 <= r.value <= hi && TldDotAt(d, r.value)
    ensures r.Some? ==> forall q :: r.value < q <= hi ==> !TldDotAt(d, q)
    ensures r.None? ==> forall q :: 1 <= q <= hi ==> !TldDotAt(d, q)
  {
    if hi == 0 then None
    else if TldDotAt(d, hi) then Some(hi)
    else LastTldDot(d, hi - 1)
  }

  /**
   * Length of the match of `[a-zA-Z0-9.-]+\.[a-zA-Z]{2,}` anchored at the
   * front of `d`, if any.
   */
  function DomainMatch(d: string): (r: Option<nat>)
    ensures r.Some? ==> r.value <= |d| && IsDomain(d[..r.value])
  {
    var m := DomainRun(d);
    if m == 0 then None
    else match LastTldDot(d, m - 1)
      case None => None
      case Some(q) =>
        var e := q + 1 + LetterRun(d[q + 1..]);
        assert IsDomain(d[..e]) by {
          assert q < m;
          assert AllLetters(d[..e][q + 1..]);
        }
        Some(e)
  }

  /** Whenever some prefix of `d` has the domain shape, the search finds a match. */
  lemma DomainMatchComplete(d: string, e: nat)
    requires e <= |d| && IsDomain(d[..e])
    ensures DomainMatch(d).Some?
  {
    var x := d[..e];
    var q :| 1 <= q && q + 3 <= |x| && x[q] == '.' && AllLetters(x[q + 1..]);
    assert TldDotAt(d, q) by {
      assert x[q + 1..][0] == d[q + 1] && x[q + 1..][1] == d[q + 2];
    }
    var m := DomainRun(d);
    assert forall j :: 0 <= j < e ==> IsDomainChar(d[j]) by {
      assert forall j :: 0 <= j < e ==> d[j] == x[j];
    }
    assert m > q;
  }

  /** The domain part of `re.search(r"@([a-zA-Z0-9.-]+\.[a-zA-Z]{2,})", s)`, searching from index `i`. */
  function DomainFrom(s: string, i: nat): (r: Option<string>)
    requires i <= |s|
    ensures r.Some? ==> IsDomain(r.value)
    ensures r.Some? ==> exists a :: i <= a < |s| && s[a] == '@' && a + 1 + |r.value| <= |s| && s[a + 1..a + 1 + |r.value|] == r.value
    decreases |s| - i
  {
    if i == |s| then None
    else if s[i] == '@' && DomainMatch(s[i + 1..]).Some? then
      var e := DomainMatch(s[i + 1..]).value;
      assert s[i + 1..i + 1 + e] == s[i + 1..][..e];
      Some(s[i + 1..i + 1 + e])
    else DomainFrom(s, i + 1)
  }

  /**
   * Domain of a sender string (`_analyze_domains`): the text after the first
   * `@` that is followed by a domain-shaped run.
   */
  function ExtractDomain(s: string): (r: Option<string>)
    ensures r.Some? ==> IsDomain(r.value)
    ensures r.Some? ==> exists a :: 0 <= a < |s| && s[a] == '@' && a + 1 + |r.value| <= |s| && s[a + 1..a + 1 + |r.value|] == r.value
  {
    DomainFrom(s, 0)
  }

  /** Number of local-part characters ending just before index `a`. */
  function LocalRunBefore(s: string, a: nat): (n: nat)
    requires a <= |s|
    ensures n <= a
    ensures forall i :: a - n <= i < a ==> IsLocalChar(s[i])
    ensures n < a ==> !IsLocalChar(s[a - n - 1])
  {
    if a == 0 || !IsLocalChar(s[a - 1]) then 0 else 1 + LocalRunBefore(s, a - 1)
  }

  /** Text matched by the address pattern as a whole. */
  ghost predicate IsAddress(x: string)
  {
    exists a :: 0 < a < |x| && x[a] == '@'
      && (forall i :: 0 <= i < a ==> IsLocalChar(x[i]))
      && IsDomain(x[a + 1..])
  }

  /**
   * The address found searching from index `i`. The local part cannot hold an
   * `@`, so the leftmost match belongs to the first `@` that has a non-empty
   * local run before it and a domain after it, and it starts where that run
   * starts.
   */
  function AddressFrom(s: string, i: nat): (r: Option<string>)
    requires i <= |s|
    ensures r.Some? ==> IsAddress(r.value)
    ensures r.Some? ==> exists b, c :: 0 <= b < c <= |s| && s[b..c] == r.value
    decreases |s| - i
  {
    if i == |s| then None
    else
      var n := LocalRunBefore(s, i);
      if s[i] == '@' && n > 0 && DomainMatch(s[i + 1..]).Some? then
        var e := DomainMatch(s[i + 1..]).value;
        AddressAt(s, i, n, e);
        Some(s[i - n..i + 1 + e])
      else AddressFrom(s, i + 1)
  }

  /** A local run, an `@` and a domain, read off `s` around index `i`, form an address. */
  lemma AddressAt(s: string, i: nat, n: nat, e: nat)
    requires i < |s| && s[i] == '@' && 0 < n <= i
    requires forall j :: i - n <= j < i ==> IsLocalChar(s[j])
    requires e <= |s[i + 1..]| && IsDomain(s[i + 1..][..e])
    ensures IsAddress(s[i - n..i + 1 + e])
  {
    var x := s[i - n..i + 1 + e];
    assert x[n] == '@';
    assert x[n + 1..] == s[i + 1..][..e];
    forall j | 0 <= j < n ensures IsLocalChar(x[j]) {
      assert x[j] == s[i - n + j];
    }
  }

  /** The address embedded in a sender string (`_analyze_senders`), if any. */
  function ExtractAddress(s: string): (r: Option<string>)
    ensures r.Some? ==> IsAddress(r.value)
    ensures r.Some? ==> exists b, c :: 0 <= b < c <= |s| && s[b..c] == r.value
  {
    AddressFrom(s, 0)
  }

  lemma {:induction false} AddressImpliesDomainFrom(s: string, i: nat)
    requires i <= |s|
    requires AddressFrom(s, i).Some?
    ensures DomainFrom(s, i).Some?
    decreases |s| - i
  {
    var n := LocalRunBefore(s, i);
    if !(s[i] == '@' && n > 0 && DomainMatch(s[i + 1..]).Some?) {
      AddressImpliesDomainFrom(s, i + 1);
    }
  }

  /**
   * A sender that is ranked under an extracted address always has a domain
   * counted too. The converse fails: "@example.com" has a domain but no
   * address, because the address pattern needs a local part.
   */
  lemma AddressImpliesDomain(s: string)
    requires ExtractAddress(s).Some?
    ensures ExtractDomain(s).Some?
  {
    AddressImpliesDomainFrom(s, 0);
  }
}

=== FILE: analyzer.dfy ===
/**
 * `EmailAnalyzer.analyze_emails`: every statistic of a batch of records,
 * gathered into one bundle.
 */
module Analyzer {
  import opened Wrappers
  import opened Counters
  import opened Records
  import opened Activity
  import opened Content
  import opened Threads
  import opened Responses

  /**
   * The result dictionary. A section that is a dictionary of its own is
   * `None` where the result holds an empty dictionary.
   */
  datatype Bundle = Bundle(
    totalEmails: nat,
    dateRange: DateRange,
    totalSizeMb: real,
    topSenders: Table<string>,
    activityByTime: Table<TimeOfDay>,
    activityByDay: Table<string>,
    activityByHour: Table<Hour>,
    subjectAnalysis: Option<SubjectStats>,
    attachmentAnalysis: Option<AttachmentStats>,
    sizeDistribution: Option<SizeStats>,
    threadAnalysis: Option<ThreadAnalysis>,
    domainAnalysis: Option<DomainStats>,
    sentimentAnalysis: Option<SentimentStats>,
    keywordAnalysis: Option<KeywordStats>,
    responseTimeAnalysis: Option<ResponseStats>)

  /**
   * `_empty_results`: no records, no sections; its headline figures are
   * what the date-range, size, sender and activity statistics give for no
   * records.
   */
  function EmptyBundle(): (b: Bundle)
    ensures b.totalEmails == 0
    ensures b.dateRange == DateRangeOf([]) && b.totalSizeMb == TotalSizeMb([])
    ensures b.topSenders == MostCommon(Tally(SenderKeys([])), 20)
    ensures b.activityByTime == Tally(Bands([])) && b.activityByDay == Tally(Days([]))
    ensures b.activityByHour == Tally(Hours([]))
    ensures b.subjectAnalysis.None? && b.attachmentAnalysis.None? && b.sizeDistribution.None?
    ensures b.threadAnalysis.None? && b.domainAnalysis.None? && b.sentimentAnalysis.None?
    ensures b.keywordAnalysis.None? && b.responseTimeAnalysis.None?
  {
    Bundle(0, NoEmails, 0.0, [], [], [], [], None, None, None, None, None, None, None, None)
  }

  /**
   * `analyze_emails`: the empty bundle for no records; otherwise every
   * statistic, failing exactly when the response-time analysis raises
   * (a thread of two or more records holding one without a date).
   */
  method AnalyzeEmails(emails: seq<Email>) returns (r: Result<Bundle, string>)
    ensures emails == [] ==> r == Success(EmptyBundle())
    ensures emails != [] ==> (r.Failure? <==> ResponseGaps(emails, ThreadOrder(emails)).None?)
    ensures emails != [] && r.Success? ==>
      var b := r.value;
      && b.totalEmails == |emails|
      && b.dateRange == DateRangeOf(emails) && b.dateRange != NoEmails
      && b.totalSizeMb == TotalSizeMb(emails)
      && b.topSenders == MostCommon(Tally(SenderKeys(emails)), 20)
      && b.activityByTime == Tally(Bands(emails))
      && b.activityByDay == Tally(Days(emails))
      && b.activityByHour == Tally(Hours(emails))
      && b.subjectAnalysis.Some? && b.attachmentAnalysis.Some? && b.sizeDistribution.Some?
      && b.threadAnalysis.Some? && b.domainAnalysis.Some? && b.sentimentAnalysis.Some?
      && b.keywordAnalysis.Some? && b.responseTimeAnalysis.Some?
      && b.sentimentAnalysis.value.positive + b.sentimentAnalysis.value.negative
         + b.sentimentAnalysis.value.neutral == |emails|
      && b.responseTimeAnalysis.value.samples == Excess(emails, ThreadOrder(emails))
  {
    if emails == [] {
      return Success(EmptyBundle());
    }
    var senders := AnalyzeSenders(emails);
    var byTime := AnalyzeTimeActivity(emails);
    var byDay := AnalyzeDailyActivity(emails);
    var byHour := AnalyzeHourlyActivity(emails);
    var subjects := AnalyzeSubjects(emails);
    var attachments := AnalyzeAttachments(emails);
    var sizes := AnalyzeSizeDistribution(emails);
    var threads := AnalyzeThreads(emails);
    var domains := AnalyzeDomains(emails);
    var sentiment := AnalyzeSentiment(emails);
    var keywords := AnalyzeKeywords(emails);
    var responses := AnalyzeResponseTimes(emails);
    if responses.Failure? {
      return Failure(responses.error);
    }
    r := Success(Bundle(
      |emails|, DateRangeOf(emails), TotalSizeMb(emails),
      senders, byTime, byDay, byHour,
      Some(subjects), Some(attachments), sizes, Some(threads), Some(domains),
      Some(sentiment), Some(keywords), Some(responses.value)));
  }
}

=== FILE: config.dfy ===
/**
 * The configuration records `EmailProviderConfig` and `AppSettings`, the
 * JSON they are read from and written back to, and the checks
 * `ConfigManager` applies to them.
 */
module Config {
  import opened Wrappers

  /** A value `json.load` can produce. */
  datatype Json =
    | JNull
    | JBool(b: bool)
    | JInt(i: int)
    | JReal(r: real)
    | JStr(s: string)
    | JList(items: seq<Json>)
    | JObject(fields: map<string, Json>)

  /** Why a configuration is refused (the `ValueError` and `TypeError` cases). */
  datatype ConfigError =
    | MissingSection(section: string)
    | NotAnObject(what: string)
    | MissingField(provider: string, field: string)
    | InvalidPort(provider: string, protocol: string)
    | UnexpectedFields(what: string, fields: set<string>)
    | WrongType(what: string, field: string)
    | InvalidTheme(theme: string)
    | InvalidLogLevel(level: string)
    | DuplicateProvider(id: string)
    | UnknownProvider(id: string)

  // ---------------------------------------------------------------------------
  // Records

  datatype ProviderConfig = ProviderConfig(
    name: string,
    imapServer: string,
    imapPort: int,
    smtpServer: string,
    smtpPort: int,
    useSsl: bool,
    useTls: bool,
    requiresOauth: bool,
    oauthClientId: Option<string>,
    oauthClientSecret: Option<string>)

  datatype AppSettings = AppSettings(
    maxEmailsPerAnalysis: int,
    cacheDurationHours: int,
    theme: string,
    language: string,
    autoSaveAnalysis: bool,
    enableNotifications: bool,
    logLevel: string,
    dataDirectory: string,
    exportFormats: seq<string>)

  const DefaultExportFormats: seq<string> := ["pdf", "png", "csv", "json"]

  /** `AppSettings()`: every field at its default. */
  const DefaultSettings: AppSettings :=
    AppSettings(10000, 24, "dark", "en", true, true, "INFO", "data", DefaultExportFormats)

  const RequiredFields: seq<string> := ["name", "imap_server", "imap_port", "smtp_server", "smtp_port"]

  const ProviderFields: set<string> := {
    "name", "imap_server", "imap_port", "smtp_server", "smtp_port",
    "use_ssl", "use_tls", "requires_oauth", "oauth_client_id", "oauth_client_secret"}

  const SettingsFields: set<string> := {
    "max_emails_per_analysis", "cache_duration_hours", "theme", "language", "auto_save_analysis",
    "enable_notifications", "log_level", "data_directory", "export_formats"}

  const ValidThemes: seq<string> := ["light", "dark", "auto"]

  const ValidLogLevels: seq<string> := ["DEBUG", "INFO", "WARNING", "ERROR", "CRITICAL"]

  // ---------------------------------------------------------------------------
  // Reading fields: the keyword arguments of the dataclass constructors

  function StrField(what: string, d: map<string, Json>, k: string): Result<string, ConfigError>
  {
    if k !in d then Failure(MissingField(what, k))
    else if d[k].JStr? then Success(d[k].s)
    else Failure(WrongType(what, k))
  }

  function StrFieldOr(what: string, d: map<string, Json>, k: string, default: string): Result<string, ConfigError>
  {
    if k !in d then Success(default) else StrField(what, d, k)
  }

  function IntField(what: string, d: map<string, Json>, k: string): Result<int, ConfigError>
  {
    if k !in d then Failure(MissingField(what, k))
    else if d[k].JInt? then Success(d[k].i)
    else Failure(WrongType(what, k))
  }

  function IntFieldOr(what: string, d: map<string, Json>, k: string, default: int): Result<int, ConfigError>
  {
    if k !in d then Success(default) else IntField(what, d, k)
  }

  function BoolFieldOr(what: string, d: map<string, Json>, k: string, default: bool): Result<bool, ConfigError>
  {
    if k !in d then Success(default)
    else if d[k].JBool? then Success(d[k].b)
    else Failure(WrongType(what, k))
  }

  /** An `Optional[str]` field: absent or `null` is `None`. */
  function OptStrField(what: string, d: map<string, Json>, k: string): Result<Option<string>, ConfigError>
  {
    if k !in d || d[k].JNull? then Success(None)
    else if d[k].JStr? then Success(Some(d[k].s))
    else Failure(WrongType(what, k))
  }

  function Strings(items: seq<Json>): (r: Option<seq<string>>)
    ensures r.Some? <==> forall i :: 0 <= i < |items| ==> items[i].JStr?
    ensures r.Some? ==> |r.value| == |items| && forall i :: 0 <= i < |items| ==> r.value[i] == items[i].s
  {
    if items == [] then Some([])
    else if !items[0].JStr? then None
    else match Strings(items[1..])
      case None => None
      case Some(rest) => Some([items[0].s] + rest)
  }

  /** `export_formats`: absent or `null` gives the default list (`__post_init__`). */
  function ExportFormatsField(d: map<string, Json>): Result<seq<string>, ConfigError>
  {
    if "export_formats" !in d || d["export_formats"].JNull? then Success(DefaultExportFormats)
    else if d["export_formats"].JList? && Strings(d["export_formats"].items).Some? then
      Success(Strings(d["export_formats"].items).value)
    else Failure(WrongType("app_settings", "export_formats"))
  }

  /**
   * `EmailProviderConfig(**data)`: names outside the record are refused,
   * required fields must be there, the rest take their defaults.
   */
  function DecodeProvider(id: string, data: Json): (r: Result<ProviderConfig, ConfigError>)
    ensures r.Success? ==> data.JObject? && data.fields.Keys <= ProviderFields
    ensures r.Success? ==> forall f :: f in RequiredFields ==> f in data.fields
    ensures r.Success? ==>
      && data.fields["imap_port"] == JInt(r.value.imapPort)
      && data.fields["smtp_port"] == JInt(r.value.smtpPort)
      && data.fields["name"] == JStr(r.value.name)
  {
    if !data.JObject? then Failure(NotAnObject(id))
    else
      var d := data.fields;
      if !(d.Keys <= ProviderFields) then Failure(UnexpectedFields(id, d.Keys - ProviderFields))
      else
        var name :- StrField(id, d, "name");
        var imapServer :- StrField(id, d, "imap_server");
        var imapPort :- IntField(id, d, "imap_port");
        var smtpServer :- StrField(id, d, "smtp_server");
        var smtpPort :- IntField(id, d, "smtp_port");
        var useSsl :- BoolFieldOr(id, d, "use_ssl", true);
        var useTls :- BoolFieldOr(id, d, "use_tls", true);
        var requiresOauth :- BoolFieldOr(id, d, "requires_oauth", false);
        var clientId :- OptStrField(id, d, "oauth_client_id");
        var clientSecret :- OptStrField(id, d, "oauth_client_secret");
        Success(ProviderConfig(name, imapServer, imapPort, smtpServer, smtpPort,
          useSsl, useTls, requiresOauth, clientId, clientSecret))
  }

  /** `AppSettings(**data)`: names outside the record are refused; every field has a default. */
  function DecodeSettings(data: Json): (r: Result<AppSettings, ConfigError>)
    ensures r.Success? ==> data.JObject? && data.fields.Keys <= SettingsFields
    ensures r.Success? && ("export_formats" !in data.fields || data.fields["export_formats"] == JNull) ==>
      r.value.exportFormats == DefaultExportFormats
  {
    if !data.JObject? then Failure(NotAnObject("app_settings"))
    else
      var d := data.fields;
      if !(d.Keys <= SettingsFields) then Failure(UnexpectedFields("app_settings", d.Keys - SettingsFields))
      else
        var maxEmails :- IntFieldOr("app_settings", d, "max_emails_per_analysis", 10000);
        var cacheHours :- IntFieldOr("app_settings", d, "cache_duration_hours", 24);
        var theme :- StrFieldOr("app_settings", d, "theme", "dark");
        var language :- StrFieldOr("app_settings", d, "language", "en");
        var autoSave :- BoolFieldOr("app_settings", d, "auto_save_analysis", true);
        var notifications :- BoolFieldOr("app_settings", d, "enable_notifications", true);
        var logLevel :- StrFieldOr("app_settings", d, "log_level", "INFO");
        var dataDirectory :- StrFieldOr("app_settings", d, "data_directory", "data");
        var exportFormats :- ExportFormatsField(d);
        Success(AppSettings(maxEmails, cacheHours, theme, language, autoSave, notifications,
          logLevel, dataDirectory, exportFormats))
  }

  /** An empty `app_settings` object gives every default, export formats included. */
  lemma EmptySettingsAreDefaults()
    ensures DecodeSettings(JObject(map[])) == Success(DefaultSettings)
    ensures DefaultSettings.exportFormats == ["pdf", "png", "csv", "json"]
  {
  }

  // ---------------------------------------------------------------------------
  // Validation

  /** The first required field, in the order of `fields`, that `d` lacks. */
  function FirstMissing(d: map<string, Json>, fields: seq<string>): (r: Option<string>)
    ensures r.None? <==> forall f :: f in fields ==> f in d
    ensures r.Some? ==>
      exists i :: 0 <= i < |fields| && fields[i] == r.value && r.value !in d && (forall j :: 0 <= j < i ==> fields[j] in d)
  {
    if fields == [] then None
    else if fields[0] !in d then Some(fields[0])
    else
      var r := FirstMissing(d, fields[1..]);
      if r.Some? then
        var i :| 0 <= i < |fields[1..]| && fields[1..][i] == r.value && r.value !in d
          && (forall j :: 0 <= j < i ==> fields[1..][j] in d);
        assert fields[i + 1] == r.value;
        r
      else r
  }

  /** A port is a positive integer. */
  predicate ValidPort(j: Json)
  {
    j.JInt? && j.i > 0
  }

  /**
   * The port test as the code writes it, `isinstance(v, int) and v > 0`:
   * a JSON `true` is an `int` to that test, so it passes as port 1.
   */
  predicate ValidPortAsWritten(j: Json)
  {
    (j.JInt? && j.i > 0) || (j.JBool? && j.b)
  }

  /** The two tests differ exactly on `true`. */
  lemma PortTestsDiffer(j: Json)
    ensures ValidPortAsWritten(j) && !ValidPort(j) <==> j == JBool(true)
    ensures ValidPort(j) ==> ValidPortAsWritten(j)
  {
  }

  /**
   * `_validate_email_provider`: the first missing required field, in the
   * order name, imap_server, imap_port, smtp_server, smtp_port, is reported;
   * then a non-positive IMAP port, then a non-positive SMTP port; then the
   * record is built.
   */
  function CheckProvider(id: string, data: Json): (r: Result<ProviderConfig, ConfigError>)
    ensures data.JObject? && FirstMissing(data.fields, RequiredFields).Some? ==>
      r == Failure(MissingField(id, FirstMissing(data.fields, RequiredFields).value))
    ensures r.Success? ==> r == DecodeProvider(id, data)
    ensures r.Success? ==> r.value.imapPort > 0 && r.value.smtpPort > 0
    ensures data.JObject? && FirstMissing(data.fields, RequiredFields).None? ==>
      && (!ValidPort(data.fields["imap_port"]) ==> r == Failure(InvalidPort(id, "IMAP")))
      && (ValidPort(data.fields["imap_port"]) && !ValidPort(data.fields["smtp_port"]) ==> r == Failure(InvalidPort(id, "SMTP")))
      && (ValidPort(data.fields["imap_port"]) && ValidPort(data.fields["smtp_port"]) ==> r == DecodeProvider(id, data))
  {
    if !data.JObject? then Failure(NotAnObject(id))
    else
      var d := data.fields;
      var missing := FirstMissing(d, RequiredFields);
      if missing.Some? then Failure(MissingField(id, missing.value))
      else if !ValidPort(d["imap_port"]) then Failure(InvalidPort(id, "IMAP"))
      else if !ValidPort(d["smtp_port"]) then Failure(InvalidPort(id, "SMTP"))
      else DecodeProvider(id, data)
  }

  /**
   * `_validate_app_settings`: the record is built, then its theme must be
   * light, dark or auto and its log level one of the five logging levels.
   */
  function CheckSettings(data: Json): (r: Result<AppSettings, ConfigError>)
    ensures DecodeSettings(data).Failure? ==> r == DecodeSettings(data)
    ensures DecodeSettings(data).Success? ==>
      var s := DecodeSettings(data).value;
      && (s.theme !in ValidThemes ==> r == Failure(InvalidTheme(s.theme)))
      && (s.theme in ValidThemes && s.logLevel !in ValidLogLevels ==> r == Failure(InvalidLogLevel(s.logLevel)))
      && (s.theme in ValidThemes && s.logLevel in ValidLogLevels ==> r == Success(s))
    ensures r.Success? ==> r.value.theme in ValidThemes && r.value.logLevel in ValidLogLevels
  {
    var s :- DecodeSettings(data);
    if s.theme !in ValidThemes then Failure(InvalidTheme(s.theme))
    else if s.logLevel !in ValidLogLevels then Failure(InvalidLogLevel(s.logLevel))
    else Success(s)
  }

  /**
   * The whole loaded configuration passes `_validate_config`: a provider
   * table whose every entry passes, then valid application settings.
   */
  predicate ConfigAccepted(cd: map<string, Json>)
  {
    && "email_providers" in cd && cd["email_providers"].JObject?
    && (forall id :: id in cd["email_providers"].fields ==>
          CheckProvider(id, cd["email_providers"].fields[id]).Success?)
    && "app_settings" in cd
    && CheckSettings(cd["app_settings"]).Success?
  }

  // ---------------------------------------------------------------------------
  // Writing back: `dataclasses.asdict`

  function OptStrJson(o: Option<string>): Json
  {
    if o.Some? then JStr(o.value) else JNull
  }

  function ProviderJson(p: ProviderConfig): Json
  {
    JObject(map[
      "name" := JStr(p.name),
      "imap_server" := JStr(p.imapServer),
      "imap_port" := JInt(p.imapPort),
      "smtp_server" := JStr(p.smtpServer),
      "smtp_port" := JInt(p.smtpPort),
      "use_ssl" := JBool(p.useSsl),
      "use_tls" := JBool(p.useTls),
      "requires_oauth" := JBool(p.requiresOauth),
      "oauth_client_id" := OptStrJson(p.oauthClientId),
      "oauth_client_secret" := OptStrJson(p.oauthClientSecret)])
  }

  function StringsJson(xs: seq<string>): (items: seq<Json>)
    ensures |items| == |xs| && forall i :: 0 <= i < |xs| ==> items[i] == JStr(xs[i])
  {
    seq(|xs|, i requires 0 <= i < |xs| => JStr(xs[i]))
  }

  function SettingsJson(s: AppSettings): Json
  {
    JObject(map[
      "max_emails_per_analysis" := JInt(s.maxEmailsPerAnalysis),
      "cache_duration_hours" := JInt(s.cacheDurationHours),
      "theme" := JStr(s.theme),
      "language" := JStr(s.language),
      "auto_save_analysis" := JBool(s.autoSaveAnalysis),
      "enable_notifications" := JBool(s.enableNotifications),
      "log_level" := JStr(s.logLevel),
      "data_directory" := JStr(s.dataDirectory),
      "export_formats" := JList(StringsJson(s.exportFormats))])
  }

  /** A provider written out by `asdict` reads back as the same record. */
  lemma ProviderRoundTrip(id: string, p: ProviderConfig)
    ensures DecodeProvider(id, ProviderJson(p)) == Success(p)
  {
    var d := ProviderJson(p).fields;
    assert d.Keys == ProviderFields;
  }

  /** ... and passes validation exactly when both ports are positive. */
  lemma ProviderCheckRoundTrip(id: string, p: ProviderConfig)
    ensures CheckProvider(id, ProviderJson(p)).Success? <==> p.imapPort > 0 && p.smtpPort > 0
  {
    ProviderRoundTrip(id, p);
    var d := ProviderJson(p).fields;
    assert forall f :: f in RequiredFields ==> f in d;
  }

  lemma {:induction false} StringsRoundTrip(xs: seq<string>)
    ensures Strings(StringsJson(xs)) == Some(xs)
  {
    var items := StringsJson(xs);
    var r := Strings(items);
    assert r.Some?;
    assert r.value == xs;
  }

  /** Settings written out by `asdict` read back as the same record. */
  lemma SettingsRoundTrip(s: AppSettings)
    ensures DecodeSettings(SettingsJson(s)) == Success(s)
  {
    StringsRoundTrip(s.exportFormats);
    assert SettingsJson(s).fields.Keys == SettingsFields;
  }

  // ---------------------------------------------------------------------------
  // The configuration written on first run

  function DefaultProvider(name: string, imapHost: string, smtpHost: string): Json
  {
    JObject(map[
      "name" := JStr(name),
      "imap_server" := JStr(imapHost),
      "imap_port" := JInt(993),
      "smtp_server" := JStr(smtpHost),
      "smtp_port" := JInt(587),
      "use_ssl" := JBool(true),
      "use_tls" := JBool(true),
      "requires_oauth" := JBool(true),
      "oauth_client_id" := JStr(""),
      "oauth_client_secret" := JStr("")])
  }

  /** The three providers written on first run. */
  function DefaultProviders(): map<string, Json>
  {
    map[
      "gmail" := DefaultProvider("Gmail", "imap.gmail.com", "smtp.gmail.com"),
      "outlook" := DefaultProvider("Outlook/Hotmail", "outlook.office365.com", "smtp.office365.com"),
      "yahoo" := DefaultProvider("Yahoo Mail", "imap.mail.yahoo.com", "smtp.mail.yahoo.com")]
  }

  /** `_get_default_config`. */
  function DefaultConfig(): map<string, Json>
  {
    map["email_providers" := JObject(DefaultProviders()), "app_settings" := SettingsJson(DefaultSettings)]
  }

  lemma DefaultProviderAccepted(name: string, imapHost: string, smtpHost: string)
    ensures forall id :: CheckProvider(id, DefaultProvider(name, imapHost, smtpHost)).Success?
  {
    var d := DefaultProvider(name, imapHost, smtpHost).fields;
    assert forall f :: f in RequiredFields ==> f in d;
    assert d.Keys == ProviderFields;
  }

  lemma DefaultProvidersAccepted()
    ensures forall id :: id in DefaultProviders() ==> CheckProvider(id, DefaultProviders()[id]).Success?
  {
    DefaultProviderAccepted("Gmail", "imap.gmail.com", "smtp.gmail.com");
    DefaultProviderAccepted("Outlook/Hotmail", "outlook.office365.com", "smtp.office365.com");
    DefaultProviderAccepted("Yahoo Mail", "imap.mail.yahoo.com", "smtp.mail.yahoo.com");
  }

  /** The configuration written on first run passes validation. */
  lemma DefaultConfigAccepted()
    ensures ConfigAccepted(DefaultConfig())
  {
    DefaultProvidersAccepted();
    SettingsRoundTrip(DefaultSettings);
  }
}

=== FILE: config_manager.dfy ===
/**
 * `ConfigManager`: the provider table, the raw configuration it was read
 * from, and the application settings, kept in step by its operations.
 * Saving to disk is a ghost log of the configurations written.
 */
module Manager {
  import opened Wrappers
  import opened Config

  class ConfigManager {
    /** `config_data`: the configuration as loaded from, and saved to, the file. */
    var configData: map<string, Json>
    /** `email_providers`: the typed provider table. */
    var emailProviders: map<string, ProviderConfig>
    /** `app_settings`; `None` until validated. */
    var appSettings: Option<AppSettings>
    /** Every configuration `_save_config` has written, oldest first. */
    ghost var saved: seq<map<string, Json>>

    /** `config_data["email_providers"]`. */
    function RawProviders(): map<string, Json>
      reads this
    {
      if "email_providers" in configData && configData["email_providers"].JObject?
      then configData["email_providers"].fields
      else map[]
    }

    /**
     * After validation the two provider tables hold the same ids, each raw
     * entry reads back as its typed record, and the settings are valid.
     */
    ghost predicate Valid()
      reads this
    {
      && "email_providers" in configData && configData["email_providers"].JObject?
      && InStep(RawProviders(), emailProviders)
      && "app_settings" in configData
      && appSettings.Some?
      && CheckSettings(configData["app_settings"]) == Success(appSettings.value)
    }

    /**
     * `__init__` up to validation: `loaded` is the parsed file, or `None`
     * when there is no file, in which case the default configuration is
     * used and saved.
     */
    constructor (loaded: Option<map<string, Json>>)
      ensures configData == if loaded.Some? then loaded.value else DefaultConfig()
      ensures emailProviders == map[] && appSettings == None
      ensures saved == if loaded.Some? then [] else [DefaultConfig()]
    {
      emailProviders := map[];
      appSettings := None;
      if loaded.Some? {
        configData := loaded.value;
        saved := [];
      } else {
        configData := DefaultConfig();
        saved := [DefaultConfig()];
      }
    }

    /** `_validate_email_provider`: check one entry and, if it passes, enter it into the table. */
    method ValidateEmailProvider(id: string, data: Json) returns (r: Outcome<ConfigError>)
      modifies this
      ensures r.Pass? <==> CheckProvider(id, data).Success?
      ensures r.Fail? ==> r.error == CheckProvider(id, data).error && emailProviders == old(emailProviders)
      ensures r.Pass? ==> emailProviders == old(emailProviders)[id := CheckProvider(id, data).value]
      ensures configData == old(configData) && appSettings == old(appSettings) && saved == old(saved)
    {
      if !data.JObject? {
        return Fail(NotAnObject(id));
      }
      var d := data.fields;
      for i := 0 to |RequiredFields|
        invariant forall j :: 0 <= j < i ==> RequiredFields[j] in d
      {
        var field := RequiredFields[i];
        if field !in d {
          assert FirstMissing(d, RequiredFields) == Some(field) by {
            assert RequiredFields[..i] + [field] == RequiredFields[..i + 1];
            FirstMissingAt(d, RequiredFields, i);
          }
          return Fail(MissingField(id, field));
        }
      }
      assert RequiredFields[2] == "imap_port" && RequiredFields[4] == "smtp_port";
      var imapPort := d["imap_port"];
      if !(imapPort.JInt? && imapPort.i > 0) {
        return Fail(InvalidPort(id, "IMAP"));
      }
      var smtpPort := d["smtp_port"];
      if !(smtpPort.JInt? && smtpPort.i > 0) {
        return Fail(InvalidPort(id, "SMTP"));
      }
      var config := DecodeProvider(id, data);
      if config.Failure? {
        return Fail(config.error);
      }
      emailProviders := emailProviders[id := config.value];
      return Pass;
    }

    /** `_validate_app_settings`: the settings are stored as built, before their theme and level are checked. */
    method ValidateAppSettings(data: Json) returns (r: Outcome<ConfigError>)
      modifies this
      ensures r.Pass? <==> CheckSettings(data).Success?
      ensures r.Fail? ==> r.error == CheckSettings(data).error
      ensures appSettings == if DecodeSettings(data).Success? then Some(DecodeSettings(data).value) else old(appSettings)
      ensures configData == old(configData) && emailProviders == old(emailProviders) && saved == old(saved)
    {
      var settings := DecodeSettings(data);
      if settings.Failure? {
        return Fail(settings.error);
      }
      appSettings := Some(settings.value);
      if settings.value.theme !in ["light", "dark", "auto"] {
        return Fail(InvalidTheme(settings.value.theme));
      }
      if settings.value.logLevel !in ["DEBUG", "INFO", "WARNING", "ERROR", "CRITICAL"] {
        return Fail(InvalidLogLevel(settings.value.logLevel));
      }
      return Pass;
    }

    /**
     * `_validate_config`: the provider section must be there and every
     * provider pass (in an order the model leaves open), then the settings
     * section must be there and pass.
     */
    method ValidateConfig() returns (r: Outcome<ConfigError>)
      requires emailProviders == map[]
      modifies this
      ensures r.Pass? <==> ConfigAccepted(configData)
      ensures "email_providers" !in configData ==> r == Fail(MissingSection("email_providers"))
      ensures "email_providers" in configData && !configData["email_providers"].JObject? ==>
        r == Fail(NotAnObject("email_providers"))
      ensures "email_providers" in configData && configData["email_providers"].JObject? && r.Fail? ==>
        (exists id :: id in RawProviders() && CheckProvider(id, RawProviders()[id]) == Failure(r.error))
        || ("app_settings" !in configData && r.error == MissingSection("app_settings"))
        || ("app_settings" in configData && CheckSettings(configData["app_settings"]) == Failure(r.error))
      ensures
        && "email_providers" in configData && configData["email_providers"].JObject?
        && (forall id :: id in RawProviders() ==> CheckProvider(id, RawProviders()[id]).Success?)
        ==>
        && ("app_settings" !in configData ==> r == Fail(MissingSection("app_settings")))
        && ("app_settings" in configData && CheckSettings(configData["app_settings"]).Failure? ==>
              r == Fail(CheckSettings(configData["app_settings"]).error))
      ensures r.Pass? ==> Valid()
      ensures r.Pass? ==> forall id :: id in emailProviders ==> Success(emailProviders[id]) == CheckProvider(id, RawProviders()[id])
      ensures configData == old(configData) && saved == old(saved)
    {
      if "email_providers" !in configData {
        return Fail(MissingSection("email_providers"));
      }
      var section := configData["email_providers"];
      if !section.JObject? {
        return Fail(NotAnObject("email_providers"));
      }
      var raw := section.fields;
      assert RawProviders() == raw;
      var remaining := raw.Keys;
      while remaining != {}
        invariant remaining <= raw.Keys
        invariant emailProviders.Keys == raw.Keys - remaining
        invariant forall id :: id in emailProviders ==> CheckProvider(id, raw[id]) == Success(emailProviders[id])
        invariant configData == old(configData) && saved == old(saved)
        decreases remaining
      {
        var id :| id in remaining;
        var outcome := ValidateEmailProvider(id, raw[id]);
        if outcome.Fail? {
          assert CheckProvider(id, RawProviders()[id]) == Failure(outcome.error);
          return outcome;
        }
        remaining := remaining - {id};
      }
      if "app_settings" !in configData {
        return Fail(MissingSection("app_settings"));
      }
      r := ValidateAppSettings(configData["app_settings"]);
    }

    /**
     * Construction as a whole: load, then validate; the manager exists only
     * when the configuration is accepted.
     */
    static method Open(loaded: Option<map<string, Json>>) returns (r: Result<ConfigManager, ConfigError>)
      ensures r.Success? <==> ConfigAccepted(if loaded.Some? then loaded.value else DefaultConfig())
      ensures r.Success? ==> fresh(r.value) && r.value.Valid()
      ensures r.Success? ==> r.value.configData == if loaded.Some? then loaded.value else DefaultConfig()
      ensures r.Success? ==> r.value.saved == if loaded.Some? then [] else [DefaultConfig()]
    {
      var manager := new ConfigManager(loaded);
      var outcome := manager.ValidateConfig();
      if outcome.Fail? {
        return Failure(outcome.error);
      }
      return Success(manager);
    }

    /** `get_email_provider`: the entry, or nothing for an unknown id. */
    method GetEmailProvider(id: string) returns (r: Option<ProviderConfig>)
      ensures r.None? <==> id !in emailProviders
      ensures r.Some? ==> r.value == emailProviders[id]
    {
      if id in emailProviders {
        r := Some(emailProviders[id]);
      } else {
        r := None;
      }
    }

    /** `get_all_providers`: a copy of the table. */
    method GetAllProviders() returns (r: map<string, ProviderConfig>)
      ensures r == emailProviders
    {
      r := emailProviders;
    }

    /**
     * `update_email_provider`: both tables get the entry under `id`, the raw
     * one in its `asdict` form, other entries untouched; then save.
     */
    method UpdateEmailProvider(id: string, config: ProviderConfig)
      requires Valid()
      modifies this
      ensures Valid()
      ensures emailProviders == old(emailProviders)[id := config]
      ensures RawProviders() == old(RawProviders())[id := ProviderJson(config)]
      ensures emailProviders.Keys == RawProviders().Keys
      ensures appSettings == old(appSettings)
      ensures configData.Keys == old(configData).Keys
      ensures configData == old(configData)["email_providers" := JObject(old(RawProviders())[id := ProviderJson(config)])]
      ensures saved == old(saved) + [configData]
    {
      InStepUpdate(RawProviders(), emailProviders, id, config);
      emailProviders := emailProviders[id := config];
      var raw := configData["email_providers"].fields;
      configData := configData["email_providers" := JObject(raw[id := ProviderJson(config)])];
      saved := saved + [configData];
    }

    /** `add_custom_provider`: refused for an id already present, which leaves everything as it was. */
    method AddCustomProvider(id: string, config: ProviderConfig) returns (r: Outcome<ConfigError>)
      requires Valid()
      modifies this
      ensures Valid()
      ensures r.Fail? <==> id in old(emailProviders)
      ensures r.Fail? ==>
        && r.error == DuplicateProvider(id)
        && emailProviders == old(emailProviders) && configData == old(configData) && saved == old(saved)
      ensures r.Pass? ==>
        && emailProviders == old(emailProviders)[id := config]
        && RawProviders() == old(RawProviders())[id := ProviderJson(config)]
        && configData == old(configData)["email_providers" := JObject(old(RawProviders())[id := ProviderJson(config)])]
        && saved == old(saved) + [configData]
      ensures appSettings == old(appSettings)
    {
      if id in emailProviders {
        return Fail(DuplicateProvider(id));
      }
      UpdateEmailProvider(id, config);
      return Pass;
    }

    /**
     * `remove_provider`: refused for an unknown id; otherwise the id leaves
     * both tables and every other entry stays as it was.
     */
    method RemoveProvider(id: string) returns (r: Outcome<ConfigError>)
      requires Valid()
      modifies this
      ensures Valid()
      ensures r.Fail? <==> id !in old(emailProviders)
      ensures r.Fail? ==>
        && r.error == UnknownProvider(id)
        && emailProviders == old(emailProviders) && configData == old(configData) && saved == old(saved)
      ensures r.Pass? ==>
        && emailProviders == old(emailProviders) - {id}
        && RawProviders() == old(RawProviders()) - {id}
        && configData == old(configData)["email_providers" := JObject(old(RawProviders()) - {id})]
        && saved == old(saved) + [configData]
      ensures appSettings == old(appSettings)
    {
      if id !in emailProviders {
        return Fail(UnknownProvider(id));
      }
      Forget(id);
      return Pass;
    }

    /** Deletes `id` from both tables and saves. */
    method Forget(id: string)
      requires Valid()
      modifies this
      ensures Valid()
      ensures emailProviders == old(emailProviders) - {id}
      ensures RawProviders() == old(RawProviders()) - {id}
      ensures configData == old(configData)["email_providers" := JObject(old(RawProviders()) - {id})]
      ensures appSettings == old(appSettings)
      ensures saved == old(saved) + [configData]
    {
      InStepRemove(RawProviders(), emailProviders, id);
      emailProviders := emailProviders - {id};
      var raw := configData["email_providers"].fields;
      configData := configData["email_providers" := JObject(raw - {id})];
      saved := saved + [configData];
    }
  }

  /** The raw and the typed provider tables hold the same ids, and each raw entry reads back as its typed record. */
  ghost predicate InStep(raw: map<string, Json>, typed: map<string, ProviderConfig>)
  {
    && typed.Keys == raw.Keys
    && forall id :: id in typed ==> DecodeProvider(id, raw[id]) == Success(typed[id])
  }

  /** Writing a record under `id` in both tables, the raw one in its `asdict` form, keeps them in step. */
  lemma InStepUpdate(raw: map<string, Json>, typed: map<string, ProviderConfig>, id: string, config: ProviderConfig)
    requires InStep(raw, typed)
    ensures InStep(raw[id := ProviderJson(config)], typed[id := config])
  {
    ProviderRoundTrip(id, config);
  }

  /** Deleting `id` from both tables keeps them in step. */
  lemma InStepRemove(raw: map<string, Json>, typed: map<string, ProviderConfig>, id: string)
    requires InStep(raw, typed)
    ensures InStep(raw - {id}, typed - {id})
  {
  }

  /** The first field found missing by scanning in order is the one `FirstMissing` reports. */
  lemma {:induction false} FirstMissingAt(d: map<string, Json>, fields: seq<string>, i: nat)
    requires i < |fields| && fields[i] !in d
    requires forall j :: 0 <= j < i ==> fields[j] in d
    ensures FirstMissing(d, fields) == Some(fields[i])
  {
    if i > 0 {
      FirstMissingAt(d, fields[1..], i - 1);
    }
  }

  /** Adding under a fresh id and then asking for it gives back the record added. */
  method AddThenGet(m: ConfigManager, id: string, config: ProviderConfig) returns (r: Option<ProviderConfig>)
    requires m.Valid() && id !in m.emailProviders
    modifies m
    ensures r == Some(config)
  {
    var added := m.AddCustomProvider(id, config);
    r := m.GetEmailProvider(id);
  }
}

=== FILE: content.dfy ===
/**
 * What the mail says and carries: `_analyze_subjects`,
 * `_analyze_attachments`, `_analyze_size_distribution`,
 * `_analyze_sentiment` and `_analyze_keywords`.
 */
module Content {
  import opened Wrappers
  import opened Counters
  import opened Text
  import opened Numbers
  import opened Records

  // ---------------------------------------------------------------------------
  // Subjects

  predicate HasSubject(e: Email) { e.subject != "" }

  function SubjectLengthOf(e: Email): seq<int>
  {
    if e.subject != "" then [|e.subject|] else []
  }

  /** Lengths of the non-empty subjects, in input order. */
  function SubjectLengths(emails: seq<Email>): (ls: seq<int>)
    ensures |ls| == CountWhere(emails, HasSubject)
  {
    FlatMapSingletons(emails, SubjectLengthOf, HasSubject);
    FlatMap(emails, SubjectLengthOf)
  }

  function SubjectWordsOf(e: Email): seq<string>
  {
    if e.subject != "" then Words(Lower(e.subject)) else []
  }

  /** The word tokens of all lower-cased subjects, in input order. */
  function SubjectWords(emails: seq<Email>): seq<string>
  {
    FlatMap(emails, SubjectWordsOf)
  }

  datatype SubjectStats = SubjectStats(
    avgLength: real, maxLength: int, minLength: int, commonWords: Table<string>, totalWords: nat)

  lemma SubjectLengthsPositive(emails: seq<Email>)
    ensures forall i :: 0 <= i < |SubjectLengths(emails)| ==> SubjectLengths(emails)[i] >= 1
  {
    forall i | 0 <= i < |SubjectLengths(emails)| ensures SubjectLengths(emails)[i] >= 1 {
      FlatMapMember(emails, SubjectLengthOf, SubjectLengths(emails)[i]);
    }
  }

  lemma SubjectWordFacts(emails: seq<Email>)
    ensures forall e :: e in MostCommon(Tally(SubjectWords(emails)), 20) ==>
      IsWord(e.0) && e.1 == Occurrences(SubjectWords(emails), e.0)
  {
    TopOfTally(SubjectWords(emails), 20);
    forall e | e in MostCommon(Tally(SubjectWords(emails)), 20) ensures IsWord(e.0) {
      FlatMapMember(emails, SubjectWordsOf, e.0);
    }
  }

  /**
   * `_analyze_subjects`: length statistics over the non-empty subjects (all 0
   * when there are none, and min <= average <= max otherwise), the 20 most
   * frequent lower-cased word tokens and the total number of tokens.
   */
  method AnalyzeSubjects(emails: seq<Email>) returns (r: SubjectStats)
    ensures r.totalWords == |SubjectWords(emails)|
    ensures r.commonWords == MostCommon(Tally(SubjectWords(emails)), 20)
    ensures forall e :: e in r.commonWords ==> IsWord(e.0) && e.1 == Occurrences(SubjectWords(emails), e.0)
    ensures SubjectLengths(emails) == [] ==> r.avgLength == 0.0 && r.maxLength == 0 && r.minLength == 0
    ensures SubjectLengths(emails) != [] ==>
      && r.maxLength == MaxOf(SubjectLengths(emails))
      && r.minLength == MinOf(SubjectLengths(emails))
      && r.avgLength == Mean(SubjectLengths(emails))
      && 1 <= r.minLength
    ensures r.minLength as real <= r.avgLength <= r.maxLength as real
  {
    var lengths: seq<int> := [];
    var words: seq<string> := [];
    var counter: Table<string> := [];
    for i := 0 to |emails|
      invariant lengths == SubjectLengths(emails[..i])
      invariant words == SubjectWords(emails[..i])
      invariant counter == Tally(words)
    {
      var e := emails[i];
      if e.subject != "" {
        lengths := lengths + [|e.subject|];
        var ws := Words(Lower(e.subject));
        words := words + ws;
        counter := AddAll(counter, ws);
      }
      FlatMapStep(emails, i, SubjectLengthOf);
      FlatMapStep(emails, i, SubjectWordsOf);
      TallyAppend(SubjectWords(emails[..i]), SubjectWordsOf(e));
    }
    assert emails[..|emails|] == emails;
    SubjectWordFacts(emails);
    if lengths == [] {
      r := SubjectStats(0.0, 0, 0, MostCommon(counter, 20), |words|);
    } else {
      MeanBetweenExtremes(lengths);
      SubjectLengthsPositive(emails);
      r := SubjectStats(Mean(lengths), MaxOf(lengths), MinOf(lengths), MostCommon(counter, 20), |words|);
    }
  }

  // ---------------------------------------------------------------------------
  // Attachments

  /**
   * `name.split(".")[-1].lower()` when `name` holds a dot: the lower-cased
   * text after its last dot; `"no_extension"` otherwise.
   */
  function Extension(name: string): (ext: string)
    ensures '.' !in name ==> ext == "no_extension"
    ensures '.' in name ==> exists k :: 0 <= k < |name| && name[k] == '.' && NoDotAfter(name, k) && ext == Lower(name[k + 1..])
  {
    var k := LastIndexOf(name, '.');
    if k < 0 then "no_extension"
    else Lower(name[k + 1..])
  }

  predicate NoDotAfter(name: string, k: int)
  {
    forall j :: 0 <= j < |name| && k < j ==> name[j] != '.'
  }

  /** The extension of each name, in order. */
  function ExtensionsOfNames(names: seq<string>): (xs: seq<string>)
    ensures |xs| == |names|
  {
    if names == [] then []
    else ExtensionsOfNames(names[..|names| - 1]) + [Extension(names[|names| - 1])]
  }

  function ExtensionsOf(e: Email): (xs: seq<string>)
    ensures |xs| == |e.attachments|
  {
    ExtensionsOfNames(e.attachments)
  }

  /** The extension of every attachment of every record, in order. */
  function Extensions(emails: seq<Email>): seq<string>
  {
    FlatMap(emails, ExtensionsOf)
  }

  predicate HasAttachments(e: Email) { e.attachments != [] }

  datatype AttachmentStats = AttachmentStats(
    emailsWithAttachments: nat, totalAttachments: nat, attachmentTypes: Table<string>, attachmentRate: real)

  /**
   * `_analyze_attachments`: how many records carry attachments, how many
   * attachments there are, the 10 most frequent extensions and the
   * percentage of records with attachments.
   */
  method AnalyzeAttachments(emails: seq<Email>) returns (r: AttachmentStats)
    ensures r.emailsWithAttachments == CountWhere(emails, HasAttachments)
    ensures r.totalAttachments == |Extensions(emails)|
    ensures r.emailsWithAttachments <= |emails| && r.emailsWithAttachments <= r.totalAttachments
    ensures r.attachmentTypes == MostCommon(Tally(Extensions(emails)), 10)
    ensures |r.attachmentTypes| <= 10
    ensures forall e :: e in r.attachmentTypes ==> e.1 == Occurrences(Extensions(emails), e.0)
    ensures r.attachmentRate == if emails == [] then 0.0
      else (r.emailsWithAttachments as real / |emails| as real) * 100.0
    ensures 0.0 <= r.attachmentRate <= 100.0
  {
    var counter: Table<string> := [];
    var withAttachments := 0;
    var total := 0;
    for i := 0 to |emails|
      invariant counter == Tally(Extensions(emails[..i]))
      invariant withAttachments == CountWhere(emails[..i], HasAttachments)
      invariant total == |Extensions(emails[..i])|
      invariant withAttachments <= total
    {
      var e := emails[i];
      FlatMapStep(emails, i, ExtensionsOf);
      CountWhereStep(emails, i, HasAttachments);
      TallyAppend(Extensions(emails[..i]), ExtensionsOf(e));
      if e.attachments != [] {
        withAttachments := withAttachments + 1;
        total := total + |e.attachments|;
        counter := CountExtensions(counter, e);
      }
    }
    assert emails[..|emails|] == emails;
    TopOfTally(Extensions(emails), 10);
    var rate := 0.0;
    if emails != [] {
      Percentage(withAttachments, |emails|);
      rate := (withAttachments as real / |emails| as real) * 100.0;
    }
    r := AttachmentStats(withAttachments, total, MostCommon(counter, 10), rate);
  }

  /** The inner loop of `_analyze_attachments`: one count per attachment. */
  method CountExtensions(counter: Table<string>, e: Email) returns (c: Table<string>)
    ensures c == AddAll(counter, ExtensionsOf(e))
  {
    c := counter;
    for j := 0 to |e.attachments|
      invariant c == AddAll(counter, ExtensionsOfNames(e.attachments[..j]))
    {
      c := Add(c, Extension(e.attachments[j]));
      assert e.attachments[..j + 1][..j] == e.attachments[..j];
    }
    assert e.attachments[..|e.attachments|] == e.attachments;
  }

  /**
   * `(a / b) * 100` lies in [0, 100] when `a <= b`: the rate bound, kept
   * apart so the real arithmetic stays out of the loop's proof.
   */
  lemma Percentage(a: nat, b: nat)
    requires 0 < b && a <= b
    ensures 0.0 <= (a as real / b as real) * 100.0 <= 100.0
  {
    assert a as real / b as real <= 1.0;
  }

  // ---------------------------------------------------------------------------
  // Sizes

  datatype SizeBand = Small | Medium | Large | VeryLarge
  {
    function Label(): string
    {
      match this
      case Small => "Small (< 1KB)"
      case Medium => "Medium (1KB - 10KB)"
      case Large => "Large (10KB - 100KB)"
      case VeryLarge => "Very Large (> 100KB)"
    }
  }

  /** The four keys the source writes are distinct, so counting bands counts those keys. */
  lemma SizeLabelsDistinct()
    ensures forall a: SizeBand, b: SizeBand :: a.Label() == b.Label() ==> a == b
  {
    forall a: SizeBand, b: SizeBand | a != b ensures a.Label() != b.Label() {
      assert a.Label()[0] != b.Label()[0];
    }
  }

  /** The band of a size in bytes; each boundary belongs to the band above it. */
  function SizeBandOf(size: nat): (b: SizeBand)
    ensures b == Small <==> size <= 1023
    ensures b == Medium <==> 1024 <= size <= 10239
    ensures b == Large <==> 10240 <= size <= 102399
    ensures b == VeryLarge <==> 102400 <= size
  {
    if size < 1024 then Small
    else if size < 10 * 1024 then Medium
    else if size < 100 * 1024 then Large
    else VeryLarge
  }

  predicate IsSmall(e: Email) { SizeBandOf(e.size) == Small }
  predicate IsMedium(e: Email) { SizeBandOf(e.size) == Medium }
  predicate IsLarge(e: Email) { SizeBandOf(e.size) == Large }
  predicate IsVeryLarge(e: Email) { SizeBandOf(e.size) == VeryLarge }

  /** The `size_ranges` dict: all four bands, always present. */
  datatype SizeRanges = SizeRanges(small: nat, medium: nat, large: nat, veryLarge: nat)

  datatype SizeStats = SizeStats(sizeRanges: SizeRanges, avgSize: real, maxSize: int, minSize: int)

  function Sizes(emails: seq<Email>): (s: seq<int>)
    ensures |s| == |emails|
    ensures forall i :: 0 <= i < |emails| ==> s[i] == emails[i].size
  {
    seq(|emails|, i requires 0 <= i < |emails| => emails[i].size)
  }

  /**
   * `_analyze_size_distribution`: nothing for no records; otherwise a count
   * per size band (adding up to the number of records) and the mean, largest
   * and smallest size, with min <= mean <= max.
   */
  method AnalyzeSizeDistribution(emails: seq<Email>) returns (r: Option<SizeStats>)
    ensures r.None? <==> emails == []
    ensures r.Some? ==>
      var ranges := r.value.sizeRanges;
      && ranges.small == CountWhere(emails, IsSmall)
      && ranges.medium == CountWhere(emails, IsMedium)
      && ranges.large == CountWhere(emails, IsLarge)
      && ranges.veryLarge == CountWhere(emails, IsVeryLarge)
      && ranges.small + ranges.medium + ranges.large + ranges.veryLarge == |emails|
    ensures r.Some? ==>
      && r.value.maxSize == MaxOf(Sizes(emails))
      && r.value.minSize == MinOf(Sizes(emails))
      && r.value.avgSize == Mean(Sizes(emails))
      && 0 <= r.value.minSize
      && r.value.minSize as real <= r.value.avgSize <= r.value.maxSize as real
  {
    var sizes := Sizes(emails);
    if sizes == [] {
      return None;
    }
    var small, medium, large, veryLarge := 0, 0, 0, 0;
    for i := 0 to |sizes|
      invariant small == CountWhere(emails[..i], IsSmall)
      invariant medium == CountWhere(emails[..i], IsMedium)
      invariant large == CountWhere(emails[..i], IsLarge)
      invariant veryLarge == CountWhere(emails[..i], IsVeryLarge)
      invariant small + medium + large + veryLarge == i
    {
      CountWhereStep(emails, i, IsSmall);
      CountWhereStep(emails, i, IsMedium);
      CountWhereStep(emails, i, IsLarge);
      CountWhereStep(emails, i, IsVeryLarge);
      var size := sizes[i];
      if size < 1024 {
        small := small + 1;
      } else if size < 10 * 1024 {
        medium := medium + 1;
      } else if size < 100 * 1024 {
        large := large + 1;
      } else {
        veryLarge := veryLarge + 1;
      }
    }
    assert emails[..|emails|] == emails;
    MeanBetweenExtremes(sizes);
    r := Some(SizeStats(SizeRanges(small, medium, large, veryLarge), Mean(sizes), MaxOf(sizes), MinOf(sizes)));
  }

  // ---------------------------------------------------------------------------
  // Sentiment

  const PositiveWords: set<string> := {
    "good", "great", "excellent", "amazing", "wonderful", "fantastic", "awesome", "perfect",
    "love", "like", "happy", "pleased", "satisfied", "thank", "thanks", "appreciate"}

  const NegativeWords: set<string> := {
    "bad", "terrible", "awful", "horrible", "disappointed", "angry", "frustrated", "hate",
    "dislike", "upset", "sad", "sorry", "apologize", "problem", "issue", "error"}

  /** `f"{email.subject} {email.body}".lower()`. */
  function TextOf(e: Email): string
  {
    Lower(e.subject + " " + e.body)
  }

  /** The distinct word tokens of a record's subject and body. */
  function WordSet(e: Email): set<string>
  {
    set w | w in Words(TextOf(e))
  }

  datatype Sentiment = Positive | Negative | Neutral

  /**
   * A record is positive when it holds more distinct positive words than
   * distinct negative ones, negative in the reverse case, and neutral on a
   * tie, including no lexicon word at all.
   */
  function Classify(e: Email): (s: Sentiment)
    ensures s == Positive <==> |WordSet(e) * PositiveWords| > |WordSet(e) * NegativeWords|
    ensures s == Negative <==> |WordSet(e) * NegativeWords| > |WordSet(e) * PositiveWords|
    ensures s == Neutral <==> |WordSet(e) * PositiveWords| == |WordSet(e) * NegativeWords|
  {
    var words := WordSet(e);
    var positiveMatches := |words * PositiveWords|;
    var negativeMatches := |words * NegativeWords|;
    if positiveMatches > negativeMatches then Positive
    else if negativeMatches > positiveMatches then Negative
    else Neutral
  }

  predicate IsPositive(e: Email) { Classify(e) == Positive }
  predicate IsNegative(e: Email) { Classify(e) == Negative }
  predicate IsNeutral(e: Email) { Classify(e) == Neutral }

  datatype SentimentStats = SentimentStats(
    positive: nat, negative: nat, neutral: nat,
    positivePercentage: real, negativePercentage: real, neutralPercentage: real)

  function PercentOf(count: nat, total: nat): real
  {
    if total > 0 then (count as real / total as real) * 100.0 else 0.0
  }

  /** Three shares of a non-empty whole add up to 100 percent. */
  lemma PercentagesAddUp(a: nat, b: nat, c: nat)
    requires a + b + c > 0
    ensures PercentOf(a, a + b + c) + PercentOf(b, a + b + c) + PercentOf(c, a + b + c) == 100.0
  {
    var n := (a + b + c) as real;
    assert (a as real / n) + (b as real / n) + (c as real / n) == (a + b + c) as real / n;
  }

  /**
   * `_analyze_sentiment`: every record lands in exactly one class, so the
   * three counts add up to the number of records and, for a non-empty input,
   * the three percentages add up to 100.
   */
  method AnalyzeSentiment(emails: seq<Email>) returns (r: SentimentStats)
    ensures r.positive == CountWhere(emails, IsPositive)
    ensures r.negative == CountWhere(emails, IsNegative)
    ensures r.neutral == CountWhere(emails, IsNeutral)
    ensures r.positive + r.negative + r.neutral == |emails|
    ensures r.positivePercentage == PercentOf(r.positive, |emails|)
    ensures r.negativePercentage == PercentOf(r.negative, |emails|)
    ensures r.neutralPercentage == PercentOf(r.neutral, |emails|)
    ensures emails != [] ==> r.positivePercentage + r.negativePercentage + r.neutralPercentage == 100.0
  {
    var positive, negative, neutral := 0, 0, 0;
    for i := 0 to |emails|
      invariant positive == CountWhere(emails[..i], IsPositive)
      invariant negative == CountWhere(emails[..i], IsNegative)
      invariant neutral == CountWhere(emails[..i], IsNeutral)
      invariant positive + negative + neutral == i
    {
      CountWhereStep(emails, i, IsPositive);
      CountWhereStep(emails, i, IsNegative);
      CountWhereStep(emails, i, IsNeutral);
      var e := emails[i];
      var words := set w | w in Words(Lower(e.subject + " " + e.body));
      var positiveMatches := |words * PositiveWords|;
      var negativeMatches := |words * NegativeWords|;
      if positiveMatches > negativeMatches {
        positive := positive + 1;
      } else if negativeMatches > positiveMatches {
        negative := negative + 1;
      } else {
        neutral := neutral + 1;
      }
    }
    assert emails[..|emails|] == emails;
    var total := |emails|;
    if total > 0 {
      PercentagesAddUp(positive, negative, neutral);
    }
    r := SentimentStats(positive, negative, neutral,
      PercentOf(positive, total), PercentOf(negative, total), PercentOf(neutral, total));
  }

  // ---------------------------------------------------------------------------
  // Keywords

  const StopWords: set<string> := {
    "the", "a", "an", "and", "or", "but", "in", "on", "at", "to", "for", "of", "with", "by",
    "is", "are", "was", "were", "be", "been", "have", "has", "had", "do", "does", "did",
    "will", "would", "could", "should", "may", "might", "can", "this", "that", "these", "those",
    "i", "you", "he", "she", "it", "we", "they", "me", "him", "her", "us", "them",
    "my", "your", "his", "its", "our", "their"}

  /** A token `\b[a-zA-Z]{3,}\b` matches: a word run of three or more letters. */
  predicate IsLetterToken(w: string) { |w| >= 3 && AllLetters(w) }

  predicate IsNotStopWord(w: string) { w !in StopWords }

  predicate IsKeyword(w: string) { IsWord(w) && IsLetterToken(w) && IsNotStopWord(w) }

  /** The tokens `_analyze_keywords` counts for one record. */
  function KeywordsOf(e: Email): (ks: seq<string>)
    ensures forall k :: k in ks ==> IsKeyword(k)
    ensures forall w :: w in Words(TextOf(e)) && IsLetterToken(w) && IsNotStopWord(w) ==> w in ks
    ensures forall w :: IsLetterToken(w) && IsNotStopWord(w) ==> Occurrences(ks, w) == Occurrences(Words(TextOf(e)), w)
  {
    var ws := Words(TextOf(e));
    KeywordFilter(ws);
    forall w | IsLetterToken(w) && IsNotStopWord(w)
      ensures Occurrences(Filter(Filter(ws, IsLetterToken), IsNotStopWord), w) == Occurrences(ws, w)
    {
      FilterOccurrences(ws, IsLetterToken, w);
      FilterOccurrences(Filter(ws, IsLetterToken), IsNotStopWord, w);
    }
    Filter(Filter(ws, IsLetterToken), IsNotStopWord)
  }

  /** Filtering keeps every occurrence of a value the filter accepts. */
  lemma {:induction false} FilterOccurrences<A>(xs: seq<A>, p: A -> bool, x: A)
    requires p(x)
    ensures Occurrences(Filter(xs, p), x) == Occurrences(xs, x)
  {
    if xs != [] {
      var head := if p(xs[0]) then [xs[0]] else [];
      FilterOccurrences(xs[1..], p, x);
      OccurrencesAppend(head, Filter(xs[1..], p), x);
      assert xs == [xs[0]] + xs[1..];
      OccurrencesAppend([xs[0]], xs[1..], x);
      assert Occurrences([xs[0]], x) == Occurrences(head, x) by {
        assert [xs[0]][..0] == [];
        if head != [] {
          assert head[..0] == [];
        }
      }
    }
  }

  /** Of a list of word tokens, the two filters keep exactly the keywords. */
  lemma KeywordFilter(ws: seq<string>)
    requires forall w :: w in ws ==> IsWord(w)
    ensures forall k :: k in Filter(Filter(ws, IsLetterToken), IsNotStopWord) ==> IsKeyword(k)
    ensures forall w :: w in ws && IsLetterToken(w) && IsNotStopWord(w) ==>
      w in Filter(Filter(ws, IsLetterToken), IsNotStopWord)
  {
    var letters := Filter(ws, IsLetterToken);
    var ks := Filter(letters, IsNotStopWord);
    forall k | k in ks ensures IsKeyword(k) {
      assert k in letters && IsNotStopWord(k);
      assert k in ws && IsLetterToken(k);
    }
    forall w | w in ws && IsLetterToken(w) && IsNotStopWord(w) ensures w in ks {
      assert w in letters;
    }
  }

  function Keywords(emails: seq<Email>): seq<string>
  {
    FlatMap(emails, KeywordsOf)
  }

  datatype KeywordStats = KeywordStats(
    topKeywords: Table<string>, totalUniqueWords: nat, mostCommonWord: Option<(string, nat)>)

  lemma KeywordFacts(emails: seq<Email>)
    ensures forall e :: e in MostCommon(Tally(Keywords(emails)), 50) ==>
      IsKeyword(e.0) && e.1 == Occurrences(Keywords(emails), e.0)
  {
    TopOfTally(Keywords(emails), 50);
    forall e | e in MostCommon(Tally(Keywords(emails)), 50) ensures IsKeyword(e.0) {
      FlatMapMember(emails, KeywordsOf, e.0);
    }
  }

  /** `most_common(1)` is the head of any longer `most_common(n)`. */
  lemma MostCommonHead<K>(t: Table<K>, n: nat)
    requires t != [] && n >= 1
    ensures MostCommon(t, 1) == [MostCommon(t, n)[0]]
  {
    SortDescFacts(t, CountOf);
  }

  /** The single most frequent entry heads the top 50 and outnumbers no entry less often. */
  lemma TopEntry<K>(t: Table<K>)
    requires DistinctKeys(t) && t != []
    ensures MostCommon(t, 1) == [MostCommon(t, 50)[0]]
    ensures forall e :: e in t ==> e.1 <= MostCommon(t, 1)[0].1
  {
    MostCommonHead(t, 50);
    MostCommonFacts(t, 1);
    var top := MostCommon(t, 1);
    forall e | e in t ensures e.1 <= top[0].1 {
      if e !in top {
        assert top[0] in top;
      }
    }
  }

  /**
   * `_analyze_keywords`: the 50 most frequent keywords (alphabetic, three
   * letters or more, not stop words), how many distinct keywords occur, and
   * the most frequent one, absent exactly when no keyword occurs.
   */
  method AnalyzeKeywords(emails: seq<Email>) returns (r: KeywordStats)
    ensures r.topKeywords == MostCommon(Tally(Keywords(emails)), 50)
    ensures |r.topKeywords| <= 50
    ensures forall e :: e in r.topKeywords ==> IsKeyword(e.0) && e.1 == Occurrences(Keywords(emails), e.0)
    ensures r.totalUniqueWords == |Tally(Keywords(emails))|
    ensures r.mostCommonWord.None? <==> Keywords(emails) == []
    ensures r.mostCommonWord.Some? ==>
      && r.topKeywords != [] && r.mostCommonWord.value == r.topKeywords[0]
      && forall e :: e in Tally(Keywords(emails)) ==> e.1 <= r.mostCommonWord.value.1
  {
    var counter: Table<string> := [];
    for i := 0 to |emails|
      invariant counter == Tally(Keywords(emails[..i]))
    {
      var e := emails[i];
      var words := Words(Lower(e.subject + " " + e.body));
      var letterWords := Filter(words, IsLetterToken);
      var filtered := Filter(letterWords, IsNotStopWord);
      counter := AddAll(counter, filtered);
      FlatMapStep(emails, i, KeywordsOf);
      TallyAppend(Keywords(emails[..i]), KeywordsOf(e));
    }
    assert emails[..|emails|] == emails;
    KeywordFacts(emails);
    TallyFacts(Keywords(emails));
    var top := MostCommon(counter, 50);
    var most: Option<(string, nat)> := None;
    if counter != [] {
      TopEntry(counter);
      most := Some(MostCommon(counter, 1)[0]);
    }
    r := KeywordStats(top, |counter|, most);
  }
}

=== FILE: counters.dfy ===
/**
 * Insertion-ordered frequency tables (Python's `Counter` and `defaultdict(int)`)
 * and the stable descending ranking behind `Counter.most_common(n)` and
 * `list.sort(key=..., reverse=True)`.
 */
module Counters {

  /** A frequency table: (key, count) pairs, keys in first-insertion order. */
  type Table<K> = seq<(K, nat)>

  /** Number of times `k` occurs in `xs`. */
  function Occurrences<K(==)>(xs: seq<K>, k: K): nat
  {
    if xs == [] then 0
    else Occurrences(xs[..|xs| - 1], k) + (if xs[|xs| - 1] == k then 1 else 0)
  }

  /** Occurrences in a concatenation add up. */
  lemma {:induction false} OccurrencesAppend<K>(xs: seq<K>, ys: seq<K>, k: K)
    ensures Occurrences(xs + ys, k) == Occurrences(xs, k) + Occurrences(ys, k)
    decreases |ys|
  {
    if ys == [] {
      assert xs + ys == xs;
    } else {
      assert (xs + ys)[..|xs + ys| - 1] == xs + ys[..|ys| - 1];
      OccurrencesAppend(xs, ys[..|ys| - 1], k);
    }
  }

  /** The keys of a table, in table order. */
  function KeysOf<K>(t: Table<K>): (ks: seq<K>)
    ensures |ks| == |t|
    ensures forall i :: 0 <= i < |t| ==> ks[i] == t[i].0
  {
    if t == [] then [] else [t[0].0] + KeysOf(t[1..])
  }

  predicate DistinctKeys<K(==)>(t: Table<K>)
  {
    forall i, j :: 0 <= i < j < |t| ==> t[i].0 != t[j].0
  }

  /** The count recorded for `k`, 0 when `k` is absent. */
  function Count<K(==)>(t: Table<K>, k: K): nat
  {
    if t == [] then 0
    else if t[0].0 == k then t[0].1
    else Count(t[1..], k)
  }

  /** Sum of all counts. */
  function Total<K>(t: Table<K>): nat
  {
    if t == [] then 0 else t[0].1 + Total(t[1..])
  }

  /** `counter[k] += 1`: bump an existing key in place, or append it with count 1. */
  function Add<K(==)>(t: Table<K>, k: K): Table<K>
  {
    if t == [] then [(k, 1)]
    else if t[0].0 == k then [(k, t[0].1 + 1)] + t[1..]
    else [t[0]] + Add(t[1..], k)
  }

  /** `counter.update(ks)`: add every key of `ks`, left to right. */
  function AddAll<K(==)>(t: Table<K>, ks: seq<K>): Table<K>
  {
    if ks == [] then t else Add(AddAll(t, ks[..|ks| - 1]), ks[|ks| - 1])
  }

  /** The table obtained by counting `xs` from scratch. */
  function Tally<K(==)>(xs: seq<K>): Table<K>
  {
    AddAll([], xs)
  }

  predicate PositiveCounts<K>(t: Table<K>)
  {
    forall i :: 0 <= i < |t| ==> t[i].1 >= 1
  }

  // ---------------------------------------------------------------------------
  // Facts about one increment

  lemma {:induction false} AddCount<K>(t: Table<K>, k: K, j: K)
    ensures Count(Add(t, k), j) == Count(t, j) + (if j == k then 1 else 0)
  {
    if t != [] && t[0].0 != k {
      AddCount(t[1..], k, j);
      assert Add(t, k)[1..] == Add(t[1..], k);
    }
  }

  lemma {:induction false} AddTotal<K>(t: Table<K>, k: K)
    ensures Total(Add(t, k)) == Total(t) + 1
  {
    if t != [] && t[0].0 != k {
      AddTotal(t[1..], k);
      assert Add(t, k)[1..] == Add(t[1..], k);
    } else if t != [] {
      assert Add(t, k)[1..] == t[1..];
    }
  }

  lemma {:induction false} AddKeys<K>(t: Table<K>, k: K, j: K)
    ensures j in KeysOf(Add(t, k)) <==> j in KeysOf(t) || j == k
    ensures |Add(t, k)| == |t| + (if k in KeysOf(t) then 0 else 1)
  {
    if t == [] {
    } else if t[0].0 == k {
      assert KeysOf(t) == [k] + KeysOf(t[1..]);
      assert Add(t, k)[1..] == t[1..];
      assert KeysOf(Add(t, k)) == [k] + KeysOf(t[1..]);
    } else {
      AddKeys(t[1..], k, j);
      assert Add(t, k)[1..] == Add(t[1..], k);
      assert KeysOf(t) == [t[0].0] + KeysOf(t[1..]);
      assert KeysOf(Add(t, k)) == [t[0].0] + KeysOf(Add(t[1..], k));
    }
  }

  /** A new key goes to the end of the key order; an existing key keeps its place. */
  lemma {:induction false} AddKeysOrder<K>(t: Table<K>, k: K)
    ensures KeysOf(Add(t, k)) == if k in KeysOf(t) then KeysOf(t) else KeysOf(t) + [k]
  {
    if t != [] && t[0].0 != k {
      AddKeysOrder(t[1..], k);
      var r := Add(t, k);
      assert r == [t[0]] + Add(t[1..], k);
      assert KeysOf(r) == [t[0].0] + KeysOf(Add(t[1..], k));
      assert KeysOf(t) == [t[0].0] + KeysOf(t[1..]);
      assert k in KeysOf(t) <==> k in KeysOf(t[1..]);
      if k !in KeysOf(t) {
        assert KeysOf(t) + [k] == [t[0].0] + (KeysOf(t[1..]) + [k]);
      }
    } else if t != [] {
      var r := Add(t, k);
      assert r == [(k, t[0].1 + 1)] + t[1..];
      assert KeysOf(r) == [k] + KeysOf(t[1..]);
      assert k in KeysOf(t);
    }
  }

  lemma {:induction false} AddPositive<K>(t: Table<K>, k: K)
    requires PositiveCounts(t)
    ensures PositiveCounts(Add(t, k))
  {
    if t != [] && t[0].0 != k {
      AddPositive(t[1..], k);
      assert Add(t, k)[1..] == Add(t[1..], k);
    }
  }

  lemma {:induction false} AddDistinct<K>(t: Table<K>, k: K)
    requires DistinctKeys(t)
    ensures DistinctKeys(Add(t, k))
  {
    if t != [] && t[0].0 != k {
      var rest := t[1..];
      AddDistinct(rest, k);
      var r := Add(t, k);
      assert r[1..] == Add(rest, k);
      forall j | 1 <= j < |r| ensures r[0].0 != r[j].0 {
        var key := r[j].0;
        assert KeysOf(Add(rest, k))[j - 1] == key;
        AddKeys(rest, k, key);
        if key in KeysOf(rest) {
          var m :| 0 <= m < |rest| && KeysOf(rest)[m] == key;
          assert t[m + 1].0 == key;
        }
      }
    } else if t != [] {
      assert Add(t, k)[1..] == t[1..];
    }
  }

  /** In a table of positive counts, a key is present exactly when its count is positive. */
  lemma {:induction false} CountPositive<K>(t: Table<K>, k: K)
    requires PositiveCounts(t)
    ensures k in KeysOf(t) <==> Count(t, k) > 0
  {
    if t != [] {
      CountPositive(t[1..], k);
      assert KeysOf(t) == [t[0].0] + KeysOf(t[1..]);
    }
  }

  // ---------------------------------------------------------------------------
  // Facts about counting a whole sequence

  lemma {:induction false} AddAllFacts<K>(t: Table<K>, ks: seq<K>)
    requires DistinctKeys(t) && PositiveCounts(t)
    ensures DistinctKeys(AddAll(t, ks)) && PositiveCounts(AddAll(t, ks))
    ensures Total(AddAll(t, ks)) == Total(t) + |ks|
    ensures |AddAll(t, ks)| <= |t| + |ks|
  {
    if ks != [] {
      var init := ks[..|ks| - 1];
      var last := ks[|ks| - 1];
      AddAllFacts(t, init);
      var u := AddAll(t, init);
      AddDistinct(u, last);
      AddPositive(u, last);
      AddTotal(u, last);
      AddKeys(u, last, last);
    }
  }

  lemma {:induction false} AddAllCount<K>(t: Table<K>, ks: seq<K>, j: K)
    ensures Count(AddAll(t, ks), j) == Count(t, j) + Occurrences(ks, j)
  {
    if ks != [] {
      AddAllCount(t, ks[..|ks| - 1], j);
      AddCount(AddAll(t, ks[..|ks| - 1]), ks[|ks| - 1], j);
    }
  }

  lemma {:induction false} AddAllKeys<K>(t: Table<K>, ks: seq<K>, j: K)
    ensures j in KeysOf(AddAll(t, ks)) <==> j in KeysOf(t) || j in ks
  {
    if ks != [] {
      var init := ks[..|ks| - 1];
      AddAllKeys(t, init, j);
      AddKeys(AddAll(t, init), ks[|ks| - 1], j);
      assert ks == init + [ks[|ks| - 1]];
    }
  }

  lemma AddAllAppend<K>(t: Table<K>, xs: seq<K>, ys: seq<K>)
    ensures AddAll(t, xs + ys) == AddAll(AddAll(t, xs), ys)
    decreases |ys|
  {
    if ys == [] {
      assert xs + ys == xs;
    } else {
      var ys' := ys[..|ys| - 1];
      assert (xs + ys)[..|xs + ys| - 1] == xs + ys';
      AddAllAppend(t, xs, ys');
    }
  }

  /** Counting `xs` then `ys` is counting their concatenation: the loop step of every counter. */
  lemma TallyAppend<K>(xs: seq<K>, ys: seq<K>)
    ensures Tally(xs + ys) == AddAll(Tally(xs), ys)
  {
    AddAllAppend([], xs, ys);
  }

  lemma TallySnoc<K>(xs: seq<K>, y: K)
    ensures Tally(xs + [y]) == Add(Tally(xs), y)
  {
    TallyAppend(xs, [y]);
    assert [y][..0] == [];
  }

  /**
   * What a counter holds after counting `xs`: distinct keys, exactly the
   * elements of `xs`, each with its number of occurrences, summing to `|xs|`.
   */
  lemma TallyFacts<K>(xs: seq<K>)
    ensures DistinctKeys(Tally(xs)) && PositiveCounts(Tally(xs))
    ensures Total(Tally(xs)) == |xs|
    ensures |Tally(xs)| <= |xs|
    ensures Tally(xs) == [] <==> xs == []
  {
    AddAllFacts([], xs);
    if xs != [] {
      AddKeys(AddAll([], xs[..|xs| - 1]), xs[|xs| - 1], xs[|xs| - 1]);
    }
  }

  lemma TallyCount<K>(xs: seq<K>, j: K)
    ensures Count(Tally(xs), j) == Occurrences(xs, j)
    ensures j in KeysOf(Tally(xs)) <==> j in xs
  {
    AddAllCount([], xs, j);
    AddAllKeys([], xs, j);
  }

  /** In a table with distinct keys, an entry's count is the count looked up for its key. */
  lemma {:induction false} CountOfEntry<K>(t: Table<K>, e: (K, nat))
    requires DistinctKeys(t) && e in t
    ensures Count(t, e.0) == e.1
  {
    if t[0] != e {
      assert e in t[1..];
      var m :| 0 <= m < |t[1..]| && t[1..][m] == e;
      assert t[m + 1] == e;
      CountOfEntry(t[1..], e);
    }
  }

  /** Each entry of a tally records how often its key occurs in the counted sequence. */
  lemma TallyEntry<K>(xs: seq<K>, e: (K, nat))
    requires e in Tally(xs)
    ensures e.1 == Occurrences(xs, e.0) && e.1 >= 1 && e.0 in xs
  {
    TallyFacts(xs);
    TallyCount(xs, e.0);
    CountOfEntry(Tally(xs), e);
    var i :| 0 <= i < |Tally(xs)| && Tally(xs)[i] == e;
    assert KeysOf(Tally(xs))[i] == e.0;
  }

  // ---------------------------------------------------------------------------
  // Stable descending ranking

  predicate SortedDesc<T>(s: seq<T>, key: T -> int)
  {
    forall i, j :: 0 <= i < j < |s| ==> key(s[i]) >= key(s[j])
  }

  /**
   * Insert `x`, which precedes every element of `s` in the original order,
   * before the first element whose key does not exceed its own: ties keep
   * the original order.
   */
  function Insert<T>(x: T, s: seq<T>, key: T -> int): seq<T>
  {
    if s == [] || key(s[0]) <= key(x) then [x] + s
    else [s[0]] + Insert(x, s[1..], key)
  }

  /** Stable sort by descending key (`sorted(s, key=key, reverse=True)`). */
  function SortDesc<T>(s: seq<T>, key: T -> int): seq<T>
  {
    if s == [] then [] else Insert(s[0], SortDesc(s[1..], key), key)
  }

  lemma {:induction false} InsertMultiset<T>(x: T, s: seq<T>, key: T -> int)
    ensures multiset(Insert(x, s, key)) == multiset(s) + multiset{x}
    ensures |Insert(x, s, key)| == |s| + 1
  {
    if s != [] && key(s[0]) > key(x) {
      InsertMultiset(x, s[1..], key);
      assert s == [s[0]] + s[1..];
    }
  }

  lemma {:induction false} InsertSorted<T>(x: T, s: seq<T>, key: T -> int)
    requires SortedDesc(s, key)
    ensures SortedDesc(Insert(x, s, key), key)
  {
    if s != [] && key(s[0]) > key(x) {
      var r' := Insert(x, s[1..], key);
      InsertSorted(x, s[1..], key);
      InsertMultiset(x, s[1..], key);
      var r := Insert(x, s, key);
      assert r == [s[0]] + r';
      forall j | 0 <= j < |r'| ensures key(s[0]) >= key(r'[j]) {
        assert r'[j] in multiset(r');
        if r'[j] != x {
          assert r'[j] in multiset(s[1..]);
          var m :| 0 <= m < |s[1..]| && s[1..][m] == r'[j];
          assert s[m + 1] == r'[j];
        }
      }
    }
  }

  lemma {:induction false} SortDescMultiset<T>(s: seq<T>, key: T -> int)
    ensures multiset(SortDesc(s, key)) == multiset(s)
    ensures |SortDesc(s, key)| == |s|
  {
    if s != [] {
      SortDescMultiset(s[1..], key);
      InsertMultiset(s[0], SortDesc(s[1..], key), key);
      assert s == [s[0]] + s[1..];
    }
  }

  lemma {:induction false} SortDescSorted<T>(s: seq<T>, key: T -> int)
    ensures SortedDesc(SortDesc(s, key), key)
  {
    if s != [] {
      SortDescSorted(s[1..], key);
      InsertSorted(s[0], SortDesc(s[1..], key), key);
    }
  }

  /** The ranking is sorted by descending key and is a permutation of its input. */
  lemma SortDescFacts<T>(s: seq<T>, key: T -> int)
    ensures SortedDesc(SortDesc(s, key), key)
    ensures multiset(SortDesc(s, key)) == multiset(s)
    ensures |SortDesc(s, key)| == |s|
  {
    SortDescMultiset(s, key);
    SortDescSorted(s, key);
  }

  function CountOf<K>(e: (K, nat)): int { e.1 }

  function Min(a: nat, b: nat): nat { if a <= b then a else b }

  /** `counter.most_common(n)`: the `n` most frequent entries, most frequent first. */
  function MostCommon<K>(t: Table<K>, n: nat): (top: Table<K>)
    ensures |top| == Min(n, |t|)
  {
    SortDescFacts(t, CountOf);
    SortDesc(t, CountOf)[..Min(n, |t|)]
  }

  /**
   * `most_common(n)` keeps `min(n, |t|)` entries of the table, most frequent
   * first, and no entry left out outnumbers one kept.
   */
  lemma MostCommonFacts<K>(t: Table<K>, n: nat)
    ensures |MostCommon(t, n)| == Min(n, |t|) && |MostCommon(t, n)| <= n
    ensures SortedDesc(MostCommon(t, n), CountOf)
    ensures forall e :: e in MostCommon(t, n) ==> e in t
    ensures forall e, f :: e in t && e !in MostCommon(t, n) && f in MostCommon(t, n) ==> e.1 <= f.1
  {
    var r := SortDesc(t, CountOf);
    SortDescFacts(t, CountOf);
    var k := Min(n, |t|);
    assert r[..k] == MostCommon(t, n);
    SortedPrefix(r, CountOf, k);
    forall e | e in r[..k] ensures e in t {
      assert e in multiset(r);
    }
    forall e | e in t ensures e in r {
      assert e in multiset(r);
    }
  }

  /** In a sequence sorted by descending key, nothing after the first `k` outranks anything among them. */
  lemma SortedPrefix<T>(r: seq<T>, key: T -> int, k: nat)
    requires SortedDesc(r, key) && k <= |r|
    ensures SortedDesc(r[..k], key)
    ensures forall e, f :: e in r && e !in r[..k] && f in r[..k] ==> key(e) <= key(f)
  {
    forall e, f | e in r && e !in r[..k] && f in r[..k] ensures key(e) <= key(f) {
      var a :| 0 <= a < |r| && r[a] == e;
      var b :| 0 <= b < k && r[..k][b] == f;
      assert a >= k && r[b] == f;
    }
  }

  /**
   * `Counter(xs).most_common(n)`: at most `n` entries, most frequent first,
   * each a key of `xs` with its exact number of occurrences, and no key left
   * out occurs more often than a key kept.
   */
  lemma TopOfTally<K>(xs: seq<K>, n: nat)
    ensures |MostCommon(Tally(xs), n)| <= n
    ensures |MostCommon(Tally(xs), n)| == Min(n, |Tally(xs)|)
    ensures SortedDesc(MostCommon(Tally(xs), n), CountOf)
    ensures forall e :: e in MostCommon(Tally(xs), n) ==> e.1 == Occurrences(xs, e.0) && e.1 >= 1 && e.0 in xs
    ensures forall e, f :: e in Tally(xs) && e !in MostCommon(Tally(xs), n) && f in MostCommon(Tally(xs), n) ==> e.1 <= f.1
  {
    var t := Tally(xs);
    TallyFacts(xs);
    MostCommonFacts(t, n);
    forall e | e in MostCommon(t, n) ensures e.1 == Occurrences(xs, e.0) && e.1 >= 1 && e.0 in xs {
      TallyEntry(xs, e);
    }
  }
}

=== FILE: numbers.dfy ===
/** Sums, extremes and means of integer samples, as Python's `sum`, `min`, `max` compute them. */
module Numbers {

  function Sum(xs: seq<int>): int
  {
    if xs == [] then 0 else Sum(xs[..|xs| - 1]) + xs[|xs| - 1]
  }

  /** `min(xs)`. */
  function MinOf(xs: seq<int>): (m: int)
    requires xs != []
    ensures m in xs
    ensures forall i :: 0 <= i < |xs| ==> m <= xs[i]
  {
    if |xs| == 1 then xs[0]
    else
      var rest := MinOf(xs[1..]);
      assert forall i :: 1 <= i < |xs| ==> xs[i] == xs[1..][i - 1];
      if rest < xs[0] then rest else xs[0]
  }

  /** `max(xs)`. */
  function MaxOf(xs: seq<int>): (m: int)
    requires xs != []
    ensures m in xs
    ensures forall i :: 0 <= i < |xs| ==> xs[i] <= m
  {
    if |xs| == 1 then xs[0]
    else
      var rest := MaxOf(xs[1..]);
      assert forall i :: 1 <= i < |xs| ==> xs[i] == xs[1..][i - 1];
      if rest > xs[0] then rest else xs[0]
  }

  /** `sum(xs) / len(xs)`, or 0 for no samples. */
  function Mean(xs: seq<int>): real
  {
    if xs == [] then 0.0 else Sum(xs) as real / |xs| as real
  }

  lemma {:induction false} SumBounds(xs: seq<int>, lo: int, hi: int)
    requires forall i :: 0 <= i < |xs| ==> lo <= xs[i] <= hi
    ensures |xs| * lo <= Sum(xs) <= |xs| * hi
  {
    if xs != [] {
      SumBounds(xs[..|xs| - 1], lo, hi);
    }
  }

  lemma QuotientBetween(total: int, k: int, lo: int, hi: int)
    requires k > 0 && k * lo <= total <= k * hi
    ensures lo as real <= total as real / k as real <= hi as real
  {
    var t, n := total as real, k as real;
    assert n * lo as real <= t <= n * hi as real;
    assert t / n - lo as real == (t - n * lo as real) / n;
    assert hi as real - t / n == (n * hi as real - t) / n;
  }

  /** The mean of a non-empty sample lies between its minimum and its maximum. */
  lemma MeanBetweenExtremes(xs: seq<int>)
    requires xs != []
    ensures MinOf(xs) as real <= Mean(xs) <= MaxOf(xs) as real
  {
    SumBounds(xs, MinOf(xs), MaxOf(xs));
    QuotientBetween(Sum(xs), |xs|, MinOf(xs), MaxOf(xs));
  }

  /** A sample of non-negative values has a non-negative mean. */
  lemma MeanNonNegative(xs: seq<int>)
    requires forall i :: 0 <= i < |xs| ==> xs[i] >= 0
    ensures Mean(xs) >= 0.0
  {
    if xs != [] {
      MeanBetweenExtremes(xs);
    }
  }
}

=== FILE: records.dfy ===
/**
 * The email record the analyzer consumes, the date range of a set of records
 * and their total size.
 */
module Records {
  import opened Wrappers

  type Hour = h: int | 0 <= h < 24

  /** 0 is Monday, as `datetime.weekday()` numbers days. */
  type Weekday = d: int | 0 <= d < 7

  /**
   * A send time: a point on one clock (seconds), with the local hour and
   * weekday `datetime` would report for it.
   */
  datatype Stamp = Stamp(instant: int, hour: Hour, weekday: Weekday)

  /** The fields of a fetched message that the analyzer reads. */
  datatype Email = Email(
    subject: string,
    sender: string,
    date: Option<Stamp>,
    body: string,
    attachments: seq<string>,
    size: nat)

  /** Concatenation of `f(x)` over `xs`, left to right. */
  function FlatMap<A, B>(xs: seq<A>, f: A -> seq<B>): seq<B>
  {
    if xs == [] then [] else FlatMap(xs[..|xs| - 1], f) + f(xs[|xs| - 1])
  }

  /** One more element of the input contributes its own part at the end: the loop step. */
  lemma FlatMapStep<A, B>(xs: seq<A>, i: nat, f: A -> seq<B>)
    requires i < |xs|
    ensures FlatMap(xs[..i + 1], f) == FlatMap(xs[..i], f) + f(xs[i])
  {
    assert xs[..i + 1][..i] == xs[..i];
  }

  lemma {:induction false} FlatMapMember<A, B>(xs: seq<A>, f: A -> seq<B>, y: B)
    requires y in FlatMap(xs, f)
    ensures exists i :: 0 <= i < |xs| && y in f(xs[i])
  {
    var init := xs[..|xs| - 1];
    if y in FlatMap(init, f) {
      FlatMapMember(init, f, y);
      var i :| 0 <= i < |init| && y in f(init[i]);
      assert xs[i] == init[i];
    }
  }

  /** The elements of `xs` for which `p` holds, in order (a filtering comprehension). */
  function Filter<A>(xs: seq<A>, p: A -> bool): (ys: seq<A>)
    ensures |ys| <= |xs|
    ensures forall y :: y in ys ==> y in xs && p(y)
    ensures forall x :: x in xs && p(x) ==> x in ys
  {
    if xs == [] then []
    else (if p(xs[0]) then [xs[0]] else []) + Filter(xs[1..], p)
  }

  /** Number of elements of `xs` for which `p` holds. */
  function CountWhere<A>(xs: seq<A>, p: A -> bool): nat
    ensures CountWhere(xs, p) <= |xs|
  {
    if xs == [] then 0 else CountWhere(xs[..|xs| - 1], p) + (if p(xs[|xs| - 1]) then 1 else 0)
  }

  lemma CountWhereStep<A>(xs: seq<A>, i: nat, p: A -> bool)
    requires i < |xs|
    ensures CountWhere(xs[..i + 1], p) == CountWhere(xs[..i], p) + (if p(xs[i]) then 1 else 0)
  {
    assert xs[..i + 1][..i] == xs[..i];
  }

  /** When each element contributes at most one item, there are as many items as contributing elements. */
  lemma {:induction false} FlatMapSingletons<A, B>(xs: seq<A>, f: A -> seq<B>, p: A -> bool)
    requires forall x :: |f(x)| == (if p(x) then 1 else 0)
    ensures |FlatMap(xs, f)| == CountWhere(xs, p)
  {
    if xs != [] {
      FlatMapSingletons(xs[..|xs| - 1], f, p);
    }
  }

  predicate HasDate(e: Email) { e.date.Some? }

  function StampOf(e: Email): seq<Stamp>
  {
    if e.date.Some? then [e.date.value] else []
  }

  /** The send times of the dated records (`[email.date for email in emails if email.date]`). */
  function Stamps(emails: seq<Email>): (ds: seq<Stamp>)
    ensures |ds| == CountWhere(emails, HasDate)
  {
    FlatMapSingletons(emails, StampOf, HasDate);
    FlatMap(emails, StampOf)
  }

  lemma {:induction false} StampsOfDated(emails: seq<Email>, i: nat)
    requires i < |emails| && emails[i].date.Some?
    ensures emails[i].date.value in Stamps(emails)
  {
    if i < |emails| - 1 {
      StampsOfDated(emails[..|emails| - 1], i);
    }
  }

  lemma StampsAreDates(emails: seq<Email>, s: Stamp)
    requires s in Stamps(emails)
    ensures exists i :: 0 <= i < |emails| && emails[i].date == Some(s)
  {
    FlatMapMember(emails, StampOf, s);
  }

  /** The first stamp with the smallest instant (`min(dates)`). */
  function Earliest(ds: seq<Stamp>): (s: Stamp)
    requires ds != []
    ensures s in ds
    ensures forall i :: 0 <= i < |ds| ==> s.instant <= ds[i].instant
  {
    if |ds| == 1 then ds[0]
    else
      var rest := Earliest(ds[1..]);
      assert forall i :: 1 <= i < |ds| ==> ds[i] == ds[1..][i - 1];
      if rest.instant < ds[0].instant then rest else ds[0]
  }

  /** The first stamp with the largest instant (`max(dates)`). */
  function Latest(ds: seq<Stamp>): (s: Stamp)
    requires ds != []
    ensures s in ds
    ensures forall i :: 0 <= i < |ds| ==> ds[i].instant <= s.instant
  {
    if |ds| == 1 then ds[0]
    else
      var rest := Latest(ds[1..]);
      assert forall i :: 1 <= i < |ds| ==> ds[i] == ds[1..][i - 1];
      if rest.instant > ds[0].instant then rest else ds[0]
  }

  /** The result of `_get_date_range`, before formatting the two ends as dates. */
  datatype DateRange = NoEmails | NoValidDates | Span(first: Stamp, last: Stamp)

  function DateRangeOf(emails: seq<Email>): (r: DateRange)
    ensures r == NoEmails <==> emails == []
    ensures r == NoValidDates <==> emails != [] && forall i :: 0 <= i < |emails| ==> emails[i].date.None?
    ensures r.Span? ==> r.first.instant <= r.last.instant
    ensures r.Span? ==> exists i :: 0 <= i < |emails| && emails[i].date == Some(r.first)
    ensures r.Span? ==> exists i :: 0 <= i < |emails| && emails[i].date == Some(r.last)
    ensures r.Span? ==> forall i :: 0 <= i < |emails| && emails[i].date.Some? ==>
      r.first.instant <= emails[i].date.value.instant <= r.last.instant
  {
    if emails == [] then NoEmails
    else
      var ds := Stamps(emails);
      if ds == [] then
        assert forall i :: 0 <= i < |emails| ==> emails[i].date.None? by {
          forall i | 0 <= i < |emails| && emails[i].date.Some? ensures false {
            StampsOfDated(emails, i);
          }
        }
        NoValidDates
      else
        var lo, hi := Earliest(ds), Latest(ds);
        StampsAreDates(emails, lo);
        StampsAreDates(emails, hi);
        forall i | 0 <= i < |emails| && emails[i].date.Some?
          ensures lo.instant <= emails[i].date.value.instant <= hi.instant
        {
          StampsOfDated(emails, i);
        }
        Span(lo, hi)
  }

  function TotalBytes(emails: seq<Email>): nat
  {
    if emails == [] then 0 else TotalBytes(emails[..|emails| - 1]) + emails[|emails| - 1].size
  }

  const BytesPerMb: real := 1048576.0

  /** `_calculate_total_size`: the summed sizes in MiB, never negative. */
  function TotalSizeMb(emails: seq<Email>): (r: real)
    ensures r >= 0.0
    ensures r * BytesPerMb == TotalBytes(emails) as real
  {
    TotalBytes(emails) as real / BytesPerMb
  }
}

=== FILE: responses.dfy ===
/**
 * `_analyze_response_times`: within every thread of two or more records,
 * the gaps between consecutive send times, in hours.
 */
module Responses {
  import opened Wrappers
  import opened Counters
  import opened Numbers
  import opened Records
  import opened Threads

  /** Every record of the group has a date. */
  predicate AllDated(group: seq<Email>)
  {
    forall e :: e in group ==> e.date.Some?
  }

  /** The send times of a fully dated group, in group order. */
  function Instants(group: seq<Email>): (xs: seq<int>)
    requires AllDated(group)
    ensures |xs| == |group|
  {
    if group == [] then []
    else Instants(group[..|group| - 1]) + [group[|group| - 1].date.value.instant]
  }

  function Negate(x: int): int { -x }

  /** `sorted(xs)`: the same values in ascending order. */
  function Ascending(xs: seq<int>): (ys: seq<int>)
    ensures |ys| == |xs| && multiset(ys) == multiset(xs)
    ensures forall i, j :: 0 <= i < j < |ys| ==> ys[i] <= ys[j]
  {
    SortDescFacts(xs, Negate);
    var ys := SortDesc(xs, Negate);
    assert forall i, j :: 0 <= i < j < |ys| ==> Negate(ys[i]) >= Negate(ys[j]);
    ys
  }

  /** The differences between consecutive elements. */
  function Gaps(xs: seq<int>): (gs: seq<int>)
    ensures |gs| == if |xs| < 2 then 0 else |xs| - 1
  {
    if |xs| < 2 then [] else Gaps(xs[..|xs| - 1]) + [xs[|xs| - 1] - xs[|xs| - 2]]
  }

  /** The gaps of an ascending sequence are never negative. */
  lemma {:induction false} GapsOfAscending(xs: seq<int>)
    requires forall i, j :: 0 <= i < j < |xs| ==> xs[i] <= xs[j]
    ensures forall g :: g in Gaps(xs) ==> g >= 0
  {
    if |xs| >= 2 {
      GapsOfAscending(xs[..|xs| - 1]);
    }
  }

  /** The gaps add up to the distance from the first element to the last. */
  lemma {:induction false} GapsTelescope(xs: seq<int>)
    requires |xs| >= 2
    ensures Sum(Gaps(xs)) == xs[|xs| - 1] - xs[0]
  {
    var gs := Gaps(xs);
    assert gs[..|gs| - 1] == Gaps(xs[..|xs| - 1]);
    if |xs| > 2 {
      GapsTelescope(xs[..|xs| - 1]);
    }
  }

  /** Sorting thread `k` by date raises: it has two or more records and one lacks a date. */
  predicate Unsortable(emails: seq<Email>, k: string)
  {
    |Members(emails, k)| > 1 && !AllDated(Members(emails, k))
  }

  /** An ascending rearrangement of `xs` starts with its minimum. */
  lemma SortedStartsWithMin(xs: seq<int>, ys: seq<int>)
    requires xs != [] && multiset(ys) == multiset(xs)
    requires forall i, j :: 0 <= i < j < |ys| ==> ys[i] <= ys[j]
    ensures ys[0] == MinOf(xs)
  {
    var lo := MinOf(xs);
    assert lo in multiset(ys);
    var a :| 0 <= a < |ys| && ys[a] == lo;
    assert ys[0] in multiset(xs);
  }

  /** An ascending rearrangement of `xs` ends with its maximum. */
  lemma SortedEndsWithMax(xs: seq<int>, ys: seq<int>)
    requires xs != [] && multiset(ys) == multiset(xs)
    requires forall i, j :: 0 <= i < j < |ys| ==> ys[i] <= ys[j]
    ensures ys[|ys| - 1] == MaxOf(xs)
  {
    var hi := MaxOf(xs);
    assert hi in multiset(ys);
    var b :| 0 <= b < |ys| && ys[b] == hi;
    assert ys[|ys| - 1] in multiset(xs);
  }

  /**
   * The response gaps, in seconds, that thread `k` contributes; together
   * they span the thread from its first send time to its last.
   */
  function ThreadGaps(emails: seq<Email>, k: string): (gs: seq<int>)
    requires !Unsortable(emails, k)
    ensures |gs| == if |Members(emails, k)| > 1 then |Members(emails, k)| - 1 else 0
    ensures forall g :: g in gs ==> g >= 0
    ensures |Members(emails, k)| > 1 ==>
      var times := Instants(Members(emails, k));
      Sum(gs) == MaxOf(times) - MinOf(times)
  {
    if |Members(emails, k)| > 1 then
      var times := Instants(Members(emails, k));
      var sorted := Ascending(times);
      GapsOfAscending(sorted);
      GapsTelescope(sorted);
      SortedStartsWithMin(times, sorted);
      SortedEndsWithMax(times, sorted);
      Gaps(sorted)
    else []
  }

  /** `sum(k - 1)` over the threads of two or more records among `keys`. */
  function Excess(emails: seq<Email>, keys: seq<string>): nat
  {
    if keys == [] then 0
    else
      var m := |Members(emails, keys[|keys| - 1])|;
      Excess(emails, keys[..|keys| - 1]) + (if m > 1 then m - 1 else 0)
  }

  /**
   * The gaps of the threads with these keys, in key order; nothing when
   * sorting one of them raises.
   */
  function ResponseGaps(emails: seq<Email>, keys: seq<string>): (r: Option<seq<int>>)
    ensures r.None? <==> exists k :: k in keys && Unsortable(emails, k)
    ensures r.Some? ==> |r.value| == Excess(emails, keys)
    ensures r.Some? ==> forall g :: g in r.value ==> g >= 0
  {
    if keys == [] then Some([])
    else
      var k := keys[|keys| - 1];
      assert forall j :: j in keys <==> j in keys[..|keys| - 1] || j == k;
      match ResponseGaps(emails, keys[..|keys| - 1])
      case None => None
      case Some(gs) =>
        if Unsortable(emails, k) then None
        else Some(gs + ThreadGaps(emails, k))
  }

  /** One more thread: its gaps are appended, unless sorting it raises. */
  lemma ResponseGapsStep(emails: seq<Email>, keys: seq<string>, i: nat, gs: seq<int>)
    requires i < |keys| && ResponseGaps(emails, keys[..i]) == Some(gs)
    ensures Unsortable(emails, keys[i]) ==> ResponseGaps(emails, keys[..i + 1]).None?
    ensures !Unsortable(emails, keys[i]) ==> ResponseGaps(emails, keys[..i + 1]) == Some(gs + ThreadGaps(emails, keys[i]))
  {
    assert keys[..i + 1][..i] == keys[..i];
  }

  /** The keys of the thread dictionary, in insertion order. */
  function ThreadOrder(emails: seq<Email>): seq<string>
  {
    KeysOf(Tally(ThreadKeys(emails)))
  }

  lemma {:induction false} TotalSnoc<K>(t: Table<K>, e: (K, nat))
    ensures Total(t + [e]) == Total(t) + e.1
  {
    if t != [] {
      assert (t + [e])[1..] == t[1..] + [e];
      TotalSnoc(t[1..], e);
    }
  }

  /** Every entry of `t` counts exactly the records of its thread. */
  ghost predicate CountsThreads(emails: seq<Email>, t: Table<string>)
  {
    forall i :: 0 <= i < |t| ==> 1 <= t[i].1 == |Members(emails, t[i].0)|
  }

  lemma CountsThreadsInit(emails: seq<Email>, t: Table<string>)
    requires t != [] && CountsThreads(emails, t)
    ensures CountsThreads(emails, t[..|t| - 1])
    ensures 1 <= t[|t| - 1].1 == |Members(emails, t[|t| - 1].0)|
  {
  }

  lemma ExcessSnoc(emails: seq<Email>, keys: seq<string>, k: string)
    ensures Excess(emails, keys + [k]) == Excess(emails, keys) + (if |Members(emails, k)| > 1 then |Members(emails, k)| - 1 else 0)
  {
    assert (keys + [k])[..|keys|] == keys;
  }

  lemma KeysOfSnoc<K>(t: Table<K>)
    requires t != []
    ensures KeysOf(t) == KeysOf(t[..|t| - 1]) + [t[|t| - 1].0]
  {
    var ks, rs := KeysOf(t), KeysOf(t[..|t| - 1]) + [t[|t| - 1].0];
    assert |ks| == |rs|;
    forall i | 0 <= i < |ks| ensures ks[i] == rs[i] {
      if i < |t| - 1 {
        assert rs[i] == KeysOf(t[..|t| - 1])[i] == t[..|t| - 1][i].0;
      }
    }
  }

  lemma {:induction false} ExcessOfTable(emails: seq<Email>, t: Table<string>)
    requires CountsThreads(emails, t)
    ensures Excess(emails, KeysOf(t)) + |t| == Total(t)
  {
    if t != [] {
      var init, last := t[..|t| - 1], t[|t| - 1];
      CountsThreadsInit(emails, t);
      KeysOfSnoc(t);
      ExcessSnoc(emails, KeysOf(init), last.0);
      assert t == init + [last];
      TotalSnoc(init, last);
      ExcessOfTable(emails, init);
    }
  }

  /**
   * The number of samples: every record with a subject, less one per
   * distinct thread key.
   */
  lemma SampleCount(emails: seq<Email>)
    ensures Excess(emails, ThreadOrder(emails)) == |ThreadKeys(emails)| - |Tally(ThreadKeys(emails))|
  {
    var xs := ThreadKeys(emails);
    var t := Tally(xs);
    forall i | 0 <= i < |t| ensures 1 <= t[i].1 == |Members(emails, t[i].0)| {
      TallyEntry(xs, t[i]);
      MembersCount(emails, t[i].0);
    }
    assert CountsThreads(emails, t);
    ExcessOfTable(emails, t);
    TallyFacts(xs);
  }

  lemma {:induction false} MemberOf(emails: seq<Email>, e: Email, k: string)
    requires e in emails && InThread(e, k)
    ensures e in Members(emails, k)
  {
    if emails[|emails| - 1] != e {
      MemberOf(emails[..|emails| - 1], e, k);
    }
  }

  /**
   * The analysis raises exactly when some record with a subject has no date
   * and its thread holds two or more records.
   */
  lemma FailureCause(emails: seq<Email>)
    ensures ResponseGaps(emails, ThreadOrder(emails)).None? <==>
      exists e :: e in emails && e.subject != "" && e.date.None? && Occurrences(ThreadKeys(emails), ThreadKey(e.subject)) > 1
  {
    var xs := ThreadKeys(emails);
    if ResponseGaps(emails, ThreadOrder(emails)).None? {
      var k :| k in ThreadOrder(emails) && Unsortable(emails, k);
      var e :| e in Members(emails, k) && e.date.None?;
      MemberFacts(emails, k, e);
      MembersCount(emails, k);
    }
    if exists e :: e in emails && e.subject != "" && e.date.None? && Occurrences(xs, ThreadKey(e.subject)) > 1 {
      var e :| e in emails && e.subject != "" && e.date.None? && Occurrences(xs, ThreadKey(e.subject)) > 1;
      var k := ThreadKey(e.subject);
      MemberOf(emails, e, k);
      MembersCount(emails, k);
      OccursIn(xs, k);
      TallyCount(xs, k);
      assert Unsortable(emails, k);
    }
  }

  const SecondsPerHour: real := 3600.0

  datatype ResponseStats = ResponseStats(avgHours: real, minHours: real, maxHours: real, samples: nat)

  /** The inner loop: one gap per consecutive pair of send times. */
  method AppendGaps(gaps: seq<int>, sorted: seq<int>) returns (r: seq<int>)
    requires sorted != []
    ensures r == gaps + Gaps(sorted)
  {
    r := gaps;
    for j := 1 to |sorted|
      invariant r == gaps + Gaps(sorted[..j])
    {
      assert sorted[..j + 1][..j] == sorted[..j];
      r := r + [sorted[j] - sorted[j - 1]];
    }
    assert sorted[..|sorted|] == sorted;
  }

  /** The loop over the threads; fails where `sorted` would raise. */
  method CollectGaps(emails: seq<Email>, keys: seq<string>, groups: map<string, seq<Email>>)
    returns (r: Option<seq<int>>)
    requires forall k :: k in keys ==> k in groups && groups[k] == Members(emails, k)
    ensures r == ResponseGaps(emails, keys)
  {
    var gaps: seq<int> := [];
    for i := 0 to |keys|
      invariant ResponseGaps(emails, keys[..i]) == Some(gaps)
    {
      ResponseGapsStep(emails, keys, i, gaps);
      var group := groups[keys[i]];
      if |group| > 1 {
        if exists e :: e in group && e.date.None? {
          assert Unsortable(emails, keys[i]);
          assert keys[i] in keys;
          return None;
        }
        assert AllDated(group);
        var sorted := Ascending(Instants(group));
        assert ThreadGaps(emails, keys[i]) == Gaps(sorted);
        gaps := AppendGaps(gaps, sorted);
      } else {
        assert ThreadGaps(emails, keys[i]) == [];
        assert gaps + [] == gaps;
      }
    }
    assert keys[..|keys|] == keys;
    return Some(gaps);
  }

  /**
   * `_analyze_response_times`: fails exactly where sorting a thread by date
   * raises; otherwise one sample per consecutive pair within each thread of
   * two or more records, never negative, with mean, smallest and largest in
   * hours, all 0 when there is no sample.
   */
  method AnalyzeResponseTimes(emails: seq<Email>) returns (r: Result<ResponseStats, string>)
    ensures r.Failure? <==> ResponseGaps(emails, ThreadOrder(emails)).None?
    ensures r.Success? ==>
      var gaps := ResponseGaps(emails, ThreadOrder(emails)).value;
      && r.value.samples == |gaps| == Excess(emails, ThreadOrder(emails))
      && r.value.samples == |ThreadKeys(emails)| - |Tally(ThreadKeys(emails))|
      && (gaps == [] ==> r.value == ResponseStats(0.0, 0.0, 0.0, 0))
      && (gaps != [] ==>
        && r.value.minHours == MinOf(gaps) as real / SecondsPerHour
        && r.value.maxHours == MaxOf(gaps) as real / SecondsPerHour
        && r.value.avgHours == Mean(gaps) / SecondsPerHour)
      && 0.0 <= r.value.minHours <= r.value.avgHours <= r.value.maxHours
  {
    var keys, groups := GroupThreads(emails);
    var gaps := CollectGaps(emails, keys, groups);
    SampleCount(emails);
    if gaps.None? {
      return Failure("TypeError: a thread holds a record without a date");
    }
    var gs := gaps.value;
    if gs == [] {
      r := Success(ResponseStats(0.0, 0.0, 0.0, 0));
    } else {
      MeanBetweenExtremes(gs);
      var lo := MinOf(gs);
      assert lo >= 0;
      r := Success(ResponseStats(Mean(gs) / SecondsPerHour, lo as real / SecondsPerHour, MaxOf(gs) as real / SecondsPerHour, |gs|));
    }
  }
}

=== FILE: text.dfy ===
/**
 * Character classes and the tokenisers used by the analyzer, for ASCII text.
 * `\w` is [A-Za-z0-9_], `\s` the ASCII whitespace that Python's `re` accepts,
 * and lower-casing folds A-Z only.
 */
module Text {

  predicate IsAsciiLetter(c: char) { 'a' <= c <= 'z' || 'A' <= c <= 'Z' }

  predicate IsDigit(c: char) { '0' <= c <= '9' }

  /** A character matched by `\w`. */
  predicate IsWordChar(c: char) { IsAsciiLetter(c) || IsDigit(c) || c == '_' }

  /** A character matched by `\s`: tab to carriage return, the four separators 0x1C-0x1F, space. */
  predicate IsSpace(c: char) { c == ' ' || 9 <= c as int <= 13 || 28 <= c as int <= 31 }

  function LowerChar(c: char): char
  {
    if 'A' <= c <= 'Z' then (c as int + 32) as char else c
  }

  /** `str.lower()` on ASCII text. */
  function Lower(s: string): (r: string)
    ensures |r| == |s|
    ensures forall i :: 0 <= i < |s| ==> r[i] == LowerChar(s[i])
  {
    seq(|s|, i requires 0 <= i < |s| => LowerChar(s[i]))
  }

  /** A token produced by `\b\w+\b`: a non-empty run of word characters. */
  predicate IsWord(w: string)
  {
    w != [] && forall i :: 0 <= i < |w| ==> IsWordChar(w[i])
  }

  /** Length of the run of word characters at the front of `s`. */
  function RunLength(s: string): (n: nat)
    ensures n <= |s|
    ensures forall i :: 0 <= i < n ==> IsWordChar(s[i])
    ensures n < |s| ==> !IsWordChar(s[n])
  {
    if s == [] || !IsWordChar(s[0]) then 0 else 1 + RunLength(s[1..])
  }

  /** `s` without its leading non-word characters. */
  function SkipSeparators(s: string): (r: string)
    ensures |r| <= |s| && r == s[|s| - |r|..]
    ensures r != [] ==> IsWordChar(r[0])
    ensures forall i :: 0 <= i < |s| - |r| ==> !IsWordChar(s[i])
  {
    if s == [] || IsWordChar(s[0]) then s else SkipSeparators(s[1..])
  }

  /** `re.findall(r"\b\w+\b", s)`: the maximal runs of word characters, left to right. */
  function Words(s: string): (ws: seq<string>)
    ensures forall w :: w in ws ==> IsWord(w)
    decreases |s|
  {
    var t := SkipSeparators(s);
    if t == [] then []
    else
      var n := RunLength(t);
      var w := t[..n];
      assert IsWord(w);
      [w] + Words(t[n..])
  }

  /** The word characters of `s`, in order. */
  function KeepWordChars(s: string): string
  {
    if s == [] then []
    else (if IsWordChar(s[0]) then [s[0]] else []) + KeepWordChars(s[1..])
  }

  function Concat(ws: seq<string>): string
  {
    if ws == [] then [] else ws[0] + Concat(ws[1..])
  }

  lemma {:induction false} KeepWordCharsAppend(a: string, b: string)
    ensures KeepWordChars(a + b) == KeepWordChars(a) + KeepWordChars(b)
  {
    if a != [] {
      KeepWordCharsAppend(a[1..], b);
      assert (a + b)[1..] == a[1..] + b;
    } else {
      assert a + b == b;
    }
  }

  lemma {:induction false} KeepWordCharsOfWordRun(s: string)
    requires forall i :: 0 <= i < |s| ==> IsWordChar(s[i])
    ensures KeepWordChars(s) == s
  {
    if s != [] {
      KeepWordCharsOfWordRun(s[1..]);
    }
  }

  lemma {:induction false} KeepWordCharsOfSeparators(s: string)
    requires forall i :: 0 <= i < |s| ==> !IsWordChar(s[i])
    ensures KeepWordChars(s) == []
  {
    if s != [] {
      KeepWordCharsOfSeparators(s[1..]);
    }
  }

  /** Leading separators contribute no word character. */
  lemma KeepWordCharsSkipped(s: string)
    ensures KeepWordChars(s) == KeepWordChars(SkipSeparators(s))
  {
    var t := SkipSeparators(s);
    var skipped := s[..|s| - |t|];
    assert s == skipped + t;
    KeepWordCharsAppend(skipped, t);
    KeepWordCharsOfSeparators(skipped);
  }

  /** A leading run of word characters is kept whole. */
  lemma KeepWordCharsRun(t: string)
    ensures KeepWordChars(t) == t[..RunLength(t)] + KeepWordChars(t[RunLength(t)..])
  {
    var n := RunLength(t);
    assert t == t[..n] + t[n..];
    KeepWordCharsAppend(t[..n], t[n..]);
    KeepWordCharsOfWordRun(t[..n]);
  }

  /**
   * Tokenising loses no word character and keeps their order: the tokens,
   * joined, are exactly the word characters of the text.
   */
  lemma {:induction false} WordsKeepEveryWordChar(s: string)
    ensures Concat(Words(s)) == KeepWordChars(s)
    decreases |s|
  {
    var t := SkipSeparators(s);
    KeepWordCharsSkipped(s);
    if t != [] {
      var n := RunLength(t);
      WordsKeepEveryWordChar(t[n..]);
      KeepWordCharsRun(t);
      var ws := Words(s);
      assert ws == [t[..n]] + Words(t[n..]);
      assert ws[1..] == Words(t[n..]);
    }
  }

  /** Text without word characters yields no token, and text with one yields at least one. */
  lemma WordsEmpty(s: string)
    ensures Words(s) == [] <==> forall i :: 0 <= i < |s| ==> !IsWordChar(s[i])
  {
    var t := SkipSeparators(s);
    if t != [] {
      assert IsWordChar(s[|s| - |t|]);
    }
  }

  /** All characters of `w` are ASCII letters. */
  predicate AllLetters(w: string)
  {
    forall i :: 0 <= i < |w| ==> IsAsciiLetter(w[i])
  }

  function LastIndexOf(s: string, c: char): (r: int)
    ensures -1 <= r < |s|
    ensures r >= 0 ==> s[r] == c
    ensures forall i :: r < i < |s| ==> s[i] != c
  {
    if s == [] then -1
    else if s[|s| - 1] == c then |s| - 1
    else LastIndexOf(s[..|s| - 1], c)
  }
}

=== FILE: threads.dfy ===
/**
 * Conversation threads: the subject key `_analyze_threads` and
 * `_analyze_response_times` group by, the grouping itself, and the thread
 * statistics.
 */
module Threads {
  import opened Wrappers
  import opened Counters
  import opened Text
  import opened Numbers
  import opened Records

  // ---------------------------------------------------------------------------
  // Thread key: `re.sub(r"^(Re|Fwd|FW|RE|FW):\s*", "", subject, flags=re.IGNORECASE).lower()`

  /** `s` begins with `p` when both are lower-cased (`p` is already lower case). */
  predicate StartsFolded(s: string, p: string)
  {
    |p| <= |s| && Lower(s[..|p|]) == p
  }

  predicate HasReplyPrefix(s: string)
  {
    StartsFolded(s, "re:") || StartsFolded(s, "fwd:") || StartsFolded(s, "fw:")
  }

  /**
   * Length of the reply or forward marker at the start of `s`, the
   * alternatives tried in the pattern's order; 0 when there is none.
   */
  function PrefixLength(s: string): (n: nat)
    ensures n <= |s|
    ensures n == 0 <==> !HasReplyPrefix(s)
    ensures n > 0 ==> Lower(s[..n]) in ["re:", "fwd:", "fw:"]
  {
    if StartsFolded(s, "re:") then 3
    else if StartsFolded(s, "fwd:") then 4
    else if StartsFolded(s, "fw:") then 3
    else 0
  }

  /** Every character of `s` from `i` up to `j` is whitespace. */
  predicate SpacesBetween(s: string, i: nat, j: nat)
    requires i <= j <= |s|
  {
    forall m :: i <= m < j ==> IsSpace(s[m])
  }

  /** The end of the run of whitespace (`\s*`) that starts at `i`. */
  function SkipSpaces(s: string, i: nat): (j: nat)
    requires i <= |s|
    ensures i <= j <= |s|
    ensures SpacesBetween(s, i, j)
    ensures j == |s| || !IsSpace(s[j])
    decreases |s| - i
  {
    if i == |s| || !IsSpace(s[i]) then i
    else SkipSpaces(s, i + 1)
  }

  /**
   * The subject with one leading reply or forward marker, and the
   * whitespace after it, removed; unchanged when it has no such marker.
   */
  function StripReplyPrefix(s: string): (rest: string)
    ensures !HasReplyPrefix(s) ==> rest == s
    ensures HasReplyPrefix(s) ==>
      exists j :: PrefixLength(s) <= j <= |s| && rest == s[j..] && SpacesBetween(s, PrefixLength(s), j)
    ensures HasReplyPrefix(s) ==> rest == [] || !IsSpace(rest[0])
  {
    var n := PrefixLength(s);
    if n == 0 then s
    else
      var j := SkipSpaces(s, n);
      s[j..]
  }

  /** The key a subject is grouped under. */
  function ThreadKey(subject: string): string
  {
    Lower(StripReplyPrefix(subject))
  }

  lemma {:induction false} SkipOverSpaces(s: string, i: nat, k: nat)
    requires i <= k <= |s|
    requires SpacesBetween(s, i, k) && (k == |s| || !IsSpace(s[k]))
    ensures SkipSpaces(s, i) == k
    decreases k - i
  {
    if i < k {
      SkipOverSpaces(s, i + 1, k);
    }
  }

  /**
   * Exactly one marker goes: a marker, any whitespace, then a remainder that
   * does not start with whitespace is keyed by the lower-cased remainder,
   * even when the remainder starts with another marker.
   */
  lemma {:induction false} KeyOfReply(marker: string, spaces: string, rest: string)
    requires Lower(marker) in ["re:", "fwd:", "fw:"]
    requires forall m :: 0 <= m < |spaces| ==> IsSpace(spaces[m])
    requires rest == [] || !IsSpace(rest[0])
    ensures ThreadKey(marker + spaces + rest) == Lower(rest)
  {
    var s := marker + spaces + rest;
    assert Lower(s[..|marker|]) == Lower(marker) by {
      assert s[..|marker|] == marker;
    }
    var n := PrefixLength(s);
    assert n == |marker| by {
      if Lower(marker) == "fw:" {
        assert Lower(s[..3]) == "fw:";
        assert !StartsFolded(s, "re:") by {
          assert Lower(s[..3])[0] == 'f';
        }
        assert !StartsFolded(s, "fwd:") by {
          if |s| >= 4 {
            assert Lower(s[..4])[2] == LowerChar(s[2]) == Lower(s[..3])[2];
          }
        }
      } else if Lower(marker) == "fwd:" {
        assert !StartsFolded(s, "re:") by {
          assert Lower(s[..3])[0] == LowerChar(s[0]) == Lower(s[..4])[0] == 'f';
        }
      }
    }
    var k := |marker| + |spaces|;
    forall m | n <= m < k ensures IsSpace(s[m]) {
      assert s[m] == spaces[m - n];
    }
    assert k == |s| || s[k] == rest[0];
    SkipOverSpaces(s, n, k);
    assert s[k..] == rest;
  }

  /** A subject without a marker is keyed by its lower-cased self. */
  lemma KeyOfPlain(subject: string)
    requires !HasReplyPrefix(subject)
    ensures ThreadKey(subject) == Lower(subject)
  {
  }

  // ---------------------------------------------------------------------------
  // Grouping: `thread_groups[clean_subject.lower()].append(email)`

  predicate InThread(e: Email, k: string)
  {
    e.subject != "" && ThreadKey(e.subject) == k
  }

  function ThreadKeyOf(e: Email): seq<string>
  {
    if e.subject != "" then [ThreadKey(e.subject)] else []
  }

  /** The key of every record with a subject, in input order. */
  function ThreadKeys(emails: seq<Email>): seq<string>
  {
    FlatMap(emails, ThreadKeyOf)
  }

  /** The records of thread `k`, in input order. */
  function Members(emails: seq<Email>, k: string): seq<Email>
  {
    if emails == [] then []
    else
      var last := emails[|emails| - 1];
      Members(emails[..|emails| - 1], k) + (if InThread(last, k) then [last] else [])
  }

  /** A thread holds only records of the input with that key. */
  lemma {:induction false} MemberFacts(emails: seq<Email>, k: string, e: Email)
    requires e in Members(emails, k)
    ensures e in emails && InThread(e, k)
  {
    var init := emails[..|emails| - 1];
    if e in Members(init, k) {
      MemberFacts(init, k, e);
    }
  }

  /** The size of a thread is the number of times its key occurs. */
  lemma {:induction false} MembersCount(emails: seq<Email>, k: string)
    ensures |Members(emails, k)| == Occurrences(ThreadKeys(emails), k)
  {
    if emails != [] {
      var init := emails[..|emails| - 1];
      var last := emails[|emails| - 1];
      MembersCount(init, k);
      var xs := ThreadKeys(init);
      assert ThreadKeys(emails) == xs + ThreadKeyOf(last);
      if last.subject != "" {
        var ys := xs + [ThreadKey(last.subject)];
        assert ys[..|ys| - 1] == xs;
        assert Occurrences(ys, k) == Occurrences(xs, k) + (if ThreadKey(last.subject) == k then 1 else 0);
      } else {
        assert xs + ThreadKeyOf(last) == xs;
      }
    }
  }

  /** Members of a prefix, one record longer. */
  lemma MembersStep(emails: seq<Email>, i: nat, k: string)
    requires i < |emails|
    ensures Members(emails[..i + 1], k) == Members(emails[..i], k) + (if InThread(emails[i], k) then [emails[i]] else [])
  {
    assert emails[..i + 1][..i] == emails[..i];
  }

  /** `keys` and `groups` are the thread dictionary of `emails`. */
  ghost predicate Grouped(emails: seq<Email>, keys: seq<string>, groups: map<string, seq<Email>>)
  {
    && keys == KeysOf(Tally(ThreadKeys(emails)))
    && (forall k :: k in groups <==> k in keys)
    && GroupsMatch(emails, groups)
  }

  /** A record without a subject joins no thread. */
  lemma GroupSkip(emails: seq<Email>, i: nat, keys: seq<string>, groups: map<string, seq<Email>>)
    requires i < |emails| && emails[i].subject == ""
    requires Grouped(emails[..i], keys, groups)
    ensures Grouped(emails[..i + 1], keys, groups)
  {
    FlatMapStep(emails, i, ThreadKeyOf);
    assert ThreadKeys(emails[..i + 1]) == ThreadKeys(emails[..i]);
    forall k ensures Members(emails[..i + 1], k) == Members(emails[..i], k) {
      MembersStep(emails, i, k);
    }
  }

  /** A record with a subject adds its key, and itself to that key's thread. */
  lemma JoinStep(emails: seq<Email>, i: nat, key: string)
    requires i < |emails| && emails[i].subject != "" && key == ThreadKey(emails[i].subject)
    ensures ThreadKeys(emails[..i + 1]) == ThreadKeys(emails[..i]) + [key]
    ensures JoinedBy(emails[..i], emails[..i + 1], emails[i], key)
  {
    FlatMapStep(emails, i, ThreadKeyOf);
    TallySnoc(ThreadKeys(emails[..i]), key);
    AddKeysOrder(Tally(ThreadKeys(emails[..i])), key);
    forall k ensures Members(emails[..i + 1], k) == Members(emails[..i], k) + (if k == key then [emails[i]] else []) {
      MembersStep(emails, i, k);
    }
  }

  /** One record `x` with key `key` appended to `pre` gives `post`. */
  ghost predicate JoinedBy(pre: seq<Email>, post: seq<Email>, x: Email, key: string)
  {
    && KeysOf(Tally(ThreadKeys(post))) ==
         (var ks := KeysOf(Tally(ThreadKeys(pre))); if key in ks then ks else ks + [key])
    && MembersJoined(pre, post, x, key)
  }

  ghost predicate MembersJoined(pre: seq<Email>, post: seq<Email>, x: Email, key: string)
  {
    forall k :: Members(post, k) == Members(pre, k) + (if k == key then [x] else [])
  }

  /** `groups` holds exactly the non-empty threads of `emails`. */
  ghost predicate GroupsMatch(emails: seq<Email>, groups: map<string, seq<Email>>)
  {
    && (forall k :: k in groups ==> groups[k] == Members(emails, k))
    && (forall k :: k !in groups ==> Members(emails, k) == [])
  }

  /** Appending `x` to the thread of `key` keeps the groups in step with the records. */
  lemma JoinGroups(pre: seq<Email>, post: seq<Email>, x: Email, key: string, groups: map<string, seq<Email>>)
    requires GroupsMatch(pre, groups) && MembersJoined(pre, post, x, key)
    ensures GroupsMatch(post, groups[key := if key in groups then groups[key] + [x] else [x]])
  {
    var groups' := groups[key := if key in groups then groups[key] + [x] else [x]];
    forall k | k in groups' ensures groups'[k] == Members(post, k) {
      assert Members(post, k) == Members(pre, k) + (if k == key then [x] else []);
    }
    forall k | k !in groups' ensures Members(post, k) == [] {
      assert Members(post, k) == Members(pre, k) + (if k == key then [x] else []);
    }
  }

  /** A record whose thread is already open is appended to that thread ... */
  lemma ExtendThread(pre: seq<Email>, post: seq<Email>, x: Email, key: string,
                     keys: seq<string>, groups: map<string, seq<Email>>)
    requires Grouped(pre, keys, groups) && JoinedBy(pre, post, x, key) && key in groups
    ensures Grouped(post, keys, groups[key := groups[key] + [x]])
  {
    JoinGroups(pre, post, x, key, groups);
    assert key in keys;
  }

  /** ... and a record with a new key opens a thread of its own. */
  lemma OpenThread(pre: seq<Email>, post: seq<Email>, x: Email, key: string,
                   keys: seq<string>, groups: map<string, seq<Email>>)
    requires Grouped(pre, keys, groups) && JoinedBy(pre, post, x, key) && key !in groups
    ensures Grouped(post, keys + [key], groups[key := [x]])
  {
    JoinGroups(pre, post, x, key, groups);
    assert key !in keys;
  }

  /**
   * The `defaultdict(list)` of threads: its keys in insertion order (the
   * order in which each key first occurs) and each key's records.
   */
  method GroupThreads(emails: seq<Email>) returns (keys: seq<string>, groups: map<string, seq<Email>>)
    ensures keys == KeysOf(Tally(ThreadKeys(emails)))
    ensures forall k :: k in groups <==> k in keys
    ensures forall k :: k in groups ==> groups[k] == Members(emails, k)
  {
    keys := [];
    groups := map[];
    for i := 0 to |emails|
      invariant Grouped(emails[..i], keys, groups)
    {
      var e := emails[i];
      if e.subject != "" {
        var key := Lower(StripReplyPrefix(e.subject));
        if key in groups {
          JoinStep(emails, i, key);
          ExtendThread(emails[..i], emails[..i + 1], e, key, keys, groups);
          groups := groups[key := groups[key] + [e]];
        } else {
          JoinStep(emails, i, key);
          OpenThread(emails[..i], emails[..i + 1], e, key, keys, groups);
          keys := keys + [key];
          groups := groups[key := [e]];
        }
      } else {
        GroupSkip(emails, i, keys, groups);
      }
    }
    assert emails[..|emails|] == emails;
  }

  // ---------------------------------------------------------------------------
  // Thread statistics

  /** One entry of `thread_stats`. */
  datatype ThreadStat = ThreadStat(subject: string, count: nat, dateRange: DateRange)

  function StatCount(t: ThreadStat): int { t.count }

  /** The entries `_analyze_threads` builds for `keys`, in that order: threads of two or more records. */
  function StatsOf(emails: seq<Email>, keys: seq<string>): seq<ThreadStat>
  {
    if keys == [] then []
    else
      var k := keys[|keys| - 1];
      var m := Members(emails, k);
      StatsOf(emails, keys[..|keys| - 1]) + (if |m| > 1 then [ThreadStat(k, |m|, DateRangeOf(m))] else [])
  }

  /** Each entry is a key of two or more records with its size and dates, and each such key has one. */
  lemma {:induction false} StatsOfFacts(emails: seq<Email>, keys: seq<string>)
    ensures forall t :: t in StatsOf(emails, keys) ==>
      && t.subject in keys
      && t.count == |Members(emails, t.subject)| >= 2
      && t.dateRange == DateRangeOf(Members(emails, t.subject))
    ensures forall k :: k in keys && |Members(emails, k)| >= 2 ==> exists t :: t in StatsOf(emails, keys) && t.subject == k
  {
    if keys != [] {
      var k := keys[|keys| - 1];
      var init := keys[..|keys| - 1];
      StatsOfFacts(emails, init);
      assert forall j :: j in keys <==> j in init || j == k;
      var ts := StatsOf(emails, keys);
      if |Members(emails, k)| > 1 {
        assert ts[|ts| - 1].subject == k;
      }
    }
  }

  /** Every thread of two or more records, in first-occurrence order of its key. */
  function ThreadStats(emails: seq<Email>): seq<ThreadStat>
  {
    StatsOf(emails, KeysOf(Tally(ThreadKeys(emails))))
  }

  /**
   * An entry is a key that occurs at least twice, with its size and date
   * range; every such key has an entry.
   */
  lemma ThreadStatsFacts(emails: seq<Email>)
    ensures forall t :: t in ThreadStats(emails) ==>
      && t.count == Occurrences(ThreadKeys(emails), t.subject) >= 2
      && t.count == |Members(emails, t.subject)|
      && t.dateRange == DateRangeOf(Members(emails, t.subject))
    ensures forall k :: Occurrences(ThreadKeys(emails), k) >= 2 ==> exists t :: t in ThreadStats(emails) && t.subject == k
  {
    var xs := ThreadKeys(emails);
    StatsOfFacts(emails, KeysOf(Tally(xs)));
    forall t | t in ThreadStats(emails) ensures t.count == Occurrences(xs, t.subject) {
      MembersCount(emails, t.subject);
    }
    forall k | Occurrences(xs, k) >= 2 ensures exists t :: t in ThreadStats(emails) && t.subject == k {
      MembersCount(emails, k);
      OccursIn(xs, k);
      TallyCount(xs, k);
      assert k in KeysOf(Tally(xs));
      assert ThreadStats(emails) == StatsOf(emails, KeysOf(Tally(xs)));
    }
  }

  lemma {:induction false} OccursIn<K>(xs: seq<K>, k: K)
    requires Occurrences(xs, k) > 0
    ensures k in xs
  {
    if xs[|xs| - 1] != k {
      OccursIn(xs[..|xs| - 1], k);
    }
  }

  function Counts(ts: seq<ThreadStat>): (cs: seq<int>)
    ensures |cs| == |ts|
    ensures forall i :: 0 <= i < |ts| ==> cs[i] == ts[i].count
  {
    seq(|ts|, i requires 0 <= i < |ts| => ts[i].count)
  }

  datatype ThreadAnalysis = ThreadAnalysis(
    totalThreads: nat, largestThread: Option<ThreadStat>, avgThreadSize: real, topThreads: seq<ThreadStat>)

  /** Threads ranked by size, largest first; equal sizes keep key order. */
  function RankedThreads(emails: seq<Email>): seq<ThreadStat>
  {
    SortDesc(ThreadStats(emails), StatCount)
  }

  /** The loop of `_analyze_threads` over the thread dictionary. */
  method CollectThreadStats(emails: seq<Email>, keys: seq<string>, groups: map<string, seq<Email>>)
    returns (stats: seq<ThreadStat>)
    requires forall k :: k in keys ==> k in groups && groups[k] == Members(emails, k)
    ensures stats == StatsOf(emails, keys)
  {
    stats := [];
    for i := 0 to |keys|
      invariant stats == StatsOf(emails, keys[..i])
    {
      var group := groups[keys[i]];
      if |group| > 1 {
        stats := stats + [ThreadStat(keys[i], |group|, DateRangeOf(group))];
      }
      assert keys[..i + 1][..i] == keys[..i];
    }
    assert keys[..|keys|] == keys;
  }

  /** The head of the ranking is a largest entry, and the ranking keeps the entries. */
  lemma RankingFacts(ts: seq<ThreadStat>, n: nat)
    requires n <= |ts|
    ensures |SortDesc(ts, StatCount)| == |ts|
    ensures SortedDesc(SortDesc(ts, StatCount)[..n], StatCount)
    ensures forall t :: t in SortDesc(ts, StatCount)[..n] ==> t in ts
    ensures ts != [] ==> forall t :: t in ts ==> t.count <= SortDesc(ts, StatCount)[0].count
  {
    var sorted := SortDesc(ts, StatCount);
    SortDescFacts(ts, StatCount);
    forall t | t in sorted[..n] ensures t in ts {
      assert t in multiset(sorted);
    }
    if ts != [] {
      forall t | t in ts ensures t.count <= sorted[0].count {
        assert t in multiset(sorted);
        var j :| 0 <= j < |sorted| && sorted[j] == t;
        assert StatCount(sorted[0]) >= StatCount(sorted[j]);
      }
    }
  }

  /** The mean size of threads of two or more records lies between 2 and the largest size. */
  lemma AverageSize(ts: seq<ThreadStat>, largest: nat)
    requires ts != []
    requires forall t :: t in ts ==> 2 <= t.count <= largest
    ensures 2.0 <= Mean(Counts(ts)) <= largest as real
  {
    var counts := Counts(ts);
    MeanBetweenExtremes(counts);
    assert ts[0] in ts;
    var lo := MinOf(counts);
    var hi := MaxOf(counts);
    assert exists i :: 0 <= i < |ts| && counts[i] == lo;
    assert exists i :: 0 <= i < |ts| && counts[i] == hi;
  }

  /**
   * `_analyze_threads`: the number of threads of two or more records, the
   * largest one (absent exactly when there is none), their mean size, and
   * the ten largest, largest first.
   */
  method AnalyzeThreads(emails: seq<Email>) returns (r: ThreadAnalysis)
    ensures r.totalThreads == |ThreadStats(emails)|
    ensures r.topThreads == RankedThreads(emails)[..Min(10, |RankedThreads(emails)|)]
    ensures |r.topThreads| <= 10 && SortedDesc(r.topThreads, StatCount)
    ensures forall t :: t in r.topThreads ==> t in ThreadStats(emails)
    ensures r.largestThread.None? <==> ThreadStats(emails) == []
    ensures r.largestThread.Some? ==>
      && r.largestThread.value == r.topThreads[0]
      && forall t :: t in ThreadStats(emails) ==> t.count <= r.largestThread.value.count
    ensures ThreadStats(emails) == [] ==> r.avgThreadSize == 0.0
    ensures ThreadStats(emails) != [] ==>
      && r.avgThreadSize == Mean(Counts(ThreadStats(emails)))
      && 2.0 <= r.avgThreadSize <= r.largestThread.value.count as real
  {
    var keys, groups := GroupThreads(emails);
    var stats := CollectThreadStats(emails, keys, groups);
    StatsOfFacts(emails, keys);
    assert stats == ThreadStats(emails);
    RankingFacts(stats, Min(10, |stats|));
    var sorted := SortDesc(stats, StatCount);
    var top := sorted[..Min(10, |stats|)];
    if stats == [] {
      r := ThreadAnalysis(0, None, 0.0, top);
    } else {
      var largest := sorted[0];
      AverageSize(stats, largest.count);
      r := ThreadAnalysis(|stats|, Some(largest), Mean(Counts(stats)), top);
    }
  }
}

=== FILE: wrappers.dfy ===
/** Option and Result values for absent data and error returns. */
module Wrappers {

  datatype Option<+T> = None | Some(value: T)

  datatype Result<+R, +E> = Success(value: R) | Failure(error: E)
  {
    predicate IsFailure() { Failure? }

    function PropagateFailure<U>(): Result<U, E>
      requires Failure?
    {
      Failure(error)
    }

    function Extract(): R
      requires Success?
    {
      value
    }
  }

  /** A check that either passes or fails with an error, carrying no value. */
  datatype Outcome<+E> = Pass | Fail(error: E)
}
